=== FILE: README.md ===
# surch history scanner: a Dafny model

`surch` scans the whole git history of a repository for secrets. It does
four things:

- It compiles the search terms into one `git grep` OR-expression.
- It clones or pulls the repository into a directory derived from its URL.
- It lists every commit and greps each one.
- It stores one record per `sha:path` hit, with the author, email and date
  of that commit.

A small plugin front end normalises the requested secret sources. It also
checks the configuration before a secret store is asked for more terms.

This project models that core as pure Dafny functions over strings and
sequences, and proves what the code promises about them.

- Git is one input, `Scanner.Shell`. It maps an exact command line to its
  standard output, or to `None` when the command exits non-zero. That
  `CalledProcessError` is caught for `rev-list` and `grep`. For `git show`
  it is not caught and escapes `_write_results`, which the model records as
  the `ShowFailed` fault.
- `git clone` and `git pull` run through `Popen`, which reports no failure.
  They are modelled as the command line chosen. `Acquire.Words` states how
  the shell cuts that line into the arguments git receives, for lines
  without quotes or other shell metacharacters.
- The two directory-existence tests are booleans.
- Two helpers whose code is not part of this model are parameters
  (`Results.Helpers`): the between-markers extractor of `utils` and the
  `BLOB_URL` template of `constants`. `Text.Between` is a reference
  extractor that satisfies that helper's own test.
- The TinyDB store is the sequence of inserted records.

Modules follow the program's structure:

| module | models |
|---|---|
| `Text` | the Python 2 string operations the code uses: `rsplit(sep, 1)`, `splitlines`, `strip`, ASCII `lower` |
| `Paths` | `os.path.join` and basenames |
| `Pattern` | `_create_search_string` |
| `Naming` | the name and path derivation of `Repo.__init__` |
| `Acquire` | `_clone_or_pull` |
| `Scanner` | `_get_all_commits`, `_search`, `_search_commit` |
| `Results` | `_write_results`, `_get_user_details` |
| `Orchestrator` | `Repo.search` and the module-level `search` |
| `Plugins` | `plugins/handler.py` |

Where the code and its documentation disagree, the model follows the code:

- The default clone directory is `os.path.join(organization,
  CLONED_REPOS_PATH)`, with the organisation first. A test
  (surch/tests/test_surch.py:124) expects the opposite order.
- Attribution is fetched once per hit line. Nothing is memoised per commit.
- A hit line is split at its last `:`. A file path that itself holds `:`
  is therefore split inside the path (`Results.ColonInPath`).
- A `search_list` of `None` on the instance fails in `len(None)`. It is
  modelled as a rejection before any git command.

## Model

| member | source | states |
|---|---|---|
| Pattern.SearchString | surch/repo.py:132-134 | the expression is empty exactly when there are no terms, and one term gives just that term in single quotes |
| Pattern.SearchStringCons | surch/repo.py:132-134 | a term added in front adds its quoted form and one ` --or -e ` separator in front, so input order is kept |
| Pattern.SearchStringRoundTrip | surch/repo.py:132-134 | for terms without a single quote, the expression parses back into exactly the term list, so nothing is dropped, merged or reordered |
| Pattern.NoEscaping | surch/repo.py:132-134 | terms are not escaped: one term holding `' --or -e '` gives the same expression as two separate terms |
| Pattern.SearchStringThree | surch/repo.py:132-134 | three terms give each term quoted, in order, with one separator between each pair |
| Pattern.ThreeTerms | surch/tests/test_surch.py:114-118 | `['a','b','c']` gives `'a' --or -e 'b' --or -e 'c'` |
| Text.RSplitOnce | surch/repo.py:64-65 | `rsplit(sep, 1)`: one part (the input itself) when the separator is absent; otherwise two parts that rebuild the input around the last occurrence |
| Text.SplitLinesTerminate | surch/repo.py:155 | splitting lines that each end in a newline gives back exactly those lines |
| Text.StripShape | surch/repo.py:214-215 | `strip()` returns a slice of its input with no whitespace at either end, and everything cut away is whitespace |
| Text.StripPadding | surch/repo.py:214-215 | whitespace padding around a text with non-space ends is removed and nothing else |
| Text.LowerAsciiIdempotent | surch/plugins/handler.py:16 | lowering twice equals lowering once, and no upper-case letter survives |
| Text.BetweenAt | surch/repo.py:212-215 | the reference extractor returns the text from the end of the first start marker to the next end marker |
| Text.BetweenExample | surch/tests/test_surch.py:174-177 | the reference extractor returns `surch` for `('bosurchom', 'bo', 'om')` |
| Paths.BasenameOfJoin | surch/repo.py:68 | joining a slash-free name onto a directory leaves that name as the basename |
| Naming.Organization | surch/repo.py:64 | the organisation is the text after the last `.com/`, cut just before its last `/`; it is the whole of that text when it holds no `/` |
| Naming.RepoName | surch/repo.py:65 | the name is the URL's last `/`-segment, cut just before its last `.`; it is the whole segment when it holds no `.`, and it never holds `/` |
| Naming.ClonedRepoDir | surch/repo.py:66-67 | a given directory is used as is; otherwise the default is `organization/CLONED_REPOS_PATH`, with one `/` between them unless the organisation is empty or already ends in `/`; an absolute clones path replaces the organisation |
| Naming.ResultsFilePath | surch/repo.py:71-74 | the results file is always called `results.json`; it is `results_dir/results.json` for a given directory, and `RESULTS_PATH/<org>/results.json` for a non-empty, slash-free organisation, with one `/` between parts unless the directory before is empty or already ends in `/` |
| Naming.ResultsInGiven | surch/repo.py:71-72 | a given results directory is followed by exactly one `/` and `results.json`, or by `results.json` alone when it already ends in `/` |
| Naming.ResultsInDefault | surch/repo.py:73-74 | the default results file is the results path, the organisation and `results.json`, with exactly one `/` between the organisation and the file name |
| Naming.NewRepo | surch/repo.py:59-74 | the repository path is the clone directory joined with the repository name, and its basename is that name |
| Naming.NamesOfCanonicalUrl | surch/repo.py:64-65 | for `<host>.com/<org>/<name>.git`, the organisation and name come back unchanged |
| Naming.SurchUrl | surch/tests/test_surch.py:64 | the test URL `https://github.com/cloudify-cosmo/surch.git`, with no directories given, gives `cloudify-cosmo` and `surch`, and the default paths built from them |
| Acquire.PlanAcquire | surch/repo.py:113-124 | the directories are created exactly when the clone directory is missing; a pull happens exactly when the repository path exists, otherwise a clone of the URL into it |
| Acquire.CloneWords | surch/repo.py:123-124 | a clone runs git with `clone`, `--quiet` only when not verbose, then the URL and the path as whole arguments; the empty flag of a verbose run adds no argument |
| Acquire.PullWords | surch/repo.py:119 | a pull runs git with `-C`, the path, `pull`, and `--quiet` only when not verbose |
| Acquire.QuietUnlessVerbose | surch/repo.py:69 | the rendered command carries `--quiet` exactly when the repository is not verbose |
| Scanner.AllCommits | surch/repo.py:148-159 | a failed listing gives no commits and leaves the count unset; otherwise the count is the number of commits, each one line |
| Scanner.AllCommitsOfOutput | surch/repo.py:153-157 | output of one sha per line lists exactly those shas |
| Scanner.SearchCommit | surch/repo.py:161-168 | a failed grep contributes no hits; no hits means the grep failed or printed nothing |
| Scanner.SearchAll | surch/repo.py:136-146 | exactly one hit list per commit, in commit order, each from the same compiled expression |
| Scanner.FlattenAppend | surch/repo.py:178-179 | the hit lines of consecutive groups of commits follow one another, so the nested loop keeps commit order |
| Scanner.FlattenMembers | surch/repo.py:178-179 | a line is in the flattened hits exactly when it is in some commit's hit list |
| Results.ParseHit | surch/repo.py:181 | no split exactly when the line has no `:`; otherwise sha, `:` and path rebuild the line, and the path has no `:` |
| Results.ParseHitIsRSplit | surch/repo.py:181 | the split agrees with `rsplit(':', 1)` |
| Results.ParseHitRoundTrip | surch/repo.py:181 | `sha:path` with a colon-free path parses back into sha and path |
| Results.ColonInPath | surch/repo.py:181 | a path holding `:` is split at its own last colon, so part of the path lands in the sha |
| Results.UserDetailsByMarkers | surch/repo.py:209-216 | with the reference extractor, the name runs from the first `Author: ` to the next ` <`, the email from the first `<` to the next `>`, and the time is the stripped text from the first `Date:   ` to the next `+` |
| Results.UserDetailsTime | surch/repo.py:214-215 | the commit time is the date text with its surrounding whitespace removed |
| Results.RecordFields | surch/repo.py:182-196 | a record's sha and path rebuild its hit line; its names come from the repository, its link from those four values, its attribution from its commit |
| Results.WriteLines | surch/repo.py:178-207 | the count equals the number of records; every line gets a record unless a fault stops the loop, and then fewer do |
| Results.WriteLinesLookups | surch/repo.py:182-211 | `git show` runs once per record, for that record's commit, plus once for the commit whose lookup failed |
| Results.WriteLinesRecords | surch/repo.py:178-198 | record `i` is the one built for hit line `i`, so records follow the flattened order |
| Results.WriteLinesFault | surch/repo.py:178-207 | the write finishes exactly when every line parses and its commit can be shown; otherwise the fault names the first line that cannot |
| Results.WriteResults | surch/repo.py:170-207 | over all commits' hit lists, the count equals the records stored, at most one per hit line, and every hit line is stored when no exception escapes |
| Results.TwoHitsOneCommit | surch/repo.py:182-183 | two hits in one commit fetch that commit's details twice |
| Results.KeepWellFormed | surch/repo.py:199-207 | the kept lines all hold `:`, every line holding `:` is kept, and nothing else is |
| Results.KeepWellFormedAppend | surch/repo.py:178-207 | the intended skip works line by line: filtering two stretches of lines gives the two filtered stretches in the same order |
| Results.KeepWellFormedLines | surch/repo.py:199-207 | a single line is kept exactly when it holds `:`, and lines that all hold one are kept unchanged and in order |
| Results.WriteLinesSkipping | surch/repo.py:199-207 | the intended loop never faults on a malformed line and writes exactly what the written loop writes for the well-formed lines |
| Results.SkippingAgreesOnWellFormed | surch/repo.py:178-207 | on well-formed hit lines both loops agree |
| Results.MalformedLineAborts | surch/repo.py:181 | a bare file name aborts the write as written, and the intended loop skips it |
| Orchestrator.EffectiveTerms | surch/repo.py:219 | a non-empty argument wins; otherwise the instance's list is used; the result is non-empty exactly when one of them is |
| Orchestrator.Scan | surch/repo.py:218-228 | rejected before any git command exactly when the effective list is missing or empty; otherwise the acquisition plan, the listed commits, one hit list per commit from the effective terms, the records the write loop stores from them, and a count equal to those records |
| Orchestrator.Search | surch/repo.py:241-274 | without a config file any non-empty source stops the constructor (exit 1, or the encoding error of a non-ASCII first value); otherwise a scan that searches every listed commit for the constructor's list, rejected exactly when that list is empty or missing, working in the derived repository path |
| Orchestrator.FalsyArgumentFallsBack | surch/repo.py:219 | `None` and `[]` as argument both mean the instance's list |
| Orchestrator.RecordsComeFromHits | surch/repo.py:178-198 | every stored record's `sha:path` is a hit line of some searched commit |
| Orchestrator.CompletesWhenShowable | surch/repo.py:178-228 | the scan completes exactly when every well-formed hit's commit can be shown, and then stores one record per well-formed hit |
| Orchestrator.FailedListing | surch/repo.py:152-159 | a failed listing searches nothing and stores nothing, while the count the code reports stays unset |
| Plugins.HandleSources | surch/plugins/handler.py:11-25 | no list gives the empty value whatever the config; a list with a config file gives the lowered list, same length and order; without one, exit 1 after the first value; a non-ASCII value fails at the first one reached |
| Plugins.PluginsHandle | surch/plugins/handler.py:11-25 | the value-by-value loop, which checks the config file after each value, produces exactly that outcome |
| Plugins.VaultRequested | surch/repo.py:54 | `vault_trigger` is called (`'vault' in self.source` holds) exactly when a config file is given, every source is ASCII, and some source is `vault` in any mix of cases; it may still exit before any store call |
| Plugins.SourcesAreLowered | surch/plugins/handler.py:13-16 | a normalised list normalises to itself |
| Plugins.VaultSection | surch/plugins/handler.py:31-36 | the `vault` mapping, or the whole file when there is none |
| Plugins.VaultTrigger | surch/plugins/handler.py:28-56 | no config file means exit; a store call receives exactly the section's url, token and path; a reported missing argument is one of those three and is absent |
| Plugins.VaultArguments | surch/plugins/handler.py:41-50 | the store is asked exactly when all three arguments are present; otherwise the first missing one, in reading order, is reported |
| Plugins.DefaultKeyList | surch/plugins/handler.py:7-8 | key patterns come from the section when present, and are otherwise exactly the seven defaults in order: `.*password.*`, `.*key.*`, `.*secret.*`, `.*id.*`, `.*endpoint.*`, `.*tenant.*`, `.*api.*` |
| Plugins.TopLevelFallback | surch/plugins/handler.py:31-36 | a file without a `vault` mapping behaves as if its content were that mapping |

## Left out

- Running git, the filesystem, `os.makedirs` and the clone removal: the command lines and the existence tests are modelled, and git output is an input.
- The three-attempt `retrying` decorator on `_clone_or_pull`: library behaviour outside the code shown.
- `error_summary`: `Popen` never raises the error its handler catches, so nothing is ever added.
- TinyDB, JSON formatting, logging, timing, printing the results file, and `handle_results_file`.
- `utils.find_string_between_strings`, `constants.BLOB_URL`, `utils.read_config_file`, `utils.merge_2_list` and `vault.get_search_list`: their code is not part of this model. The first two are parameters, the configuration is an input map, and the store call is the argument record it receives.
- The merge of store terms into the search list in `Repo.__init__` (repo.py:54-58): it depends on `merge_2_list` and the store answer. `Plugins.WantsVault` and `Plugins.VaultRequested` model only the test that triggers it.
- `init_with_config_file` and the configuration-file branch of `search`: they go through `read_config_file`.
- The `TypeError` branch of `vault_trigger` that swallows errors from the store call: the store is not modelled.
- Plugins.VaultTrigger: a non-mapping `vault` entry is one `NotASection` outcome. The `TypeError` it raises on the next lookup is not told apart by kind.
- Orchestrator.Scan: uses the intended write loop and the zero commit count of the two findings below. The behaviour as written is modelled by `Results.WriteLines` and `Scanner.AllCommits`.
- The click CLI and the test harness.
- Results.Helpers: the markers helper and the `BLOB_URL` template are total functions and never raise. The `except IndexError: pass` skip at repo.py:199-207 can only be reached through them, so it is unreachable in the model. `Results.WriteLines` and `Results.WriteLinesFault` hold under that assumption.
- `utils.check_if_cmd_exists_else_exit('git')` (repo.py:49 and repo.py:254): the model assumes git is installed.
- Orchestrator.Search: only the branch without a configuration file is modelled, so the source handling always runs without one and the store merge of repo.py:54-58 never applies.

## Findings

| source | as written | input that shows it | evidently intended | confidence | as-written member | corrected member |
|---|---|---|---|---|---|---|
| surch/repo.py:181 | a hit line without `:` makes the unpacking raise `ValueError`, but only `IndexError` is caught, so the whole write aborts | hits `[["README.md"]]` | skip the line without counting it, as the comment at repo.py:199-206 says | high, not executed | Results.MalformedLineAborts | Results.WriteLinesSkipping |
| surch/repo.py:237 | when `rev-list` fails, `self.commits` is never set, and the final report reads it | `git -C <path> rev-list --all` exits non-zero | report zero results in zero commits | medium, not executed | Orchestrator.FailedListing | Orchestrator.Scan |

=== FILE: acquire.dfy ===
/** Repository acquisition (repo.py `Repo._clone_or_pull`): create the clone
    directory when it is missing, then issue one `git clone` or one `git pull`. */
module Acquire {
  import opened Text
  import opened Naming

  datatype GitCommand =
    | Clone(quiet: bool, url: string, path: string)
    | Pull(path: string, quiet: bool)

  function QuietFlag(quiet: bool): string {
    if quiet then "--quiet" else ""
  }

  /** The shell line handed to `run`. */
  function Render(c: GitCommand): string {
    match c
    case Clone(q, url, path) => "git clone " + QuietFlag(q) + " " + url + " " + path
    case Pull(path, q) => "git -C " + path + " pull " + QuietFlag(q)
  }

  /** What one acquisition does: `makeDirs` is the `os.makedirs` of the clone
      directory, `command` the single git command run afterwards. */
  datatype Plan = Plan(makeDirs: bool, command: GitCommand)

  /** The two filesystem tests are inputs: does the clone directory exist, and
      does the repository path. */
  function PlanAcquire(repo: Repo, clonedDirExists: bool, repoPathExists: bool): (p: Plan)
    ensures p.makeDirs <==> !clonedDirExists
    ensures p.command.Pull? <==> repoPathExists
    ensures p.command.path == repo.repoPath
    ensures p.command.Clone? ==> p.command.url == repo.repoUrl
    ensures p.command.quiet <==> !repo.verbose
  {
    var quiet := !repo.verbose;
    Plan(!clonedDirExists,
         if repoPathExists then Pull(repo.repoPath, quiet) else Clone(quiet, repo.repoUrl, repo.repoPath))
  }

  /** In a clone line `--quiet` stands right after `git clone` exactly when
      the command is quiet. */
  lemma CloneQuietFlag(q: bool, url: string, path: string)
    ensures "git clone --quiet " <= Render(Clone(q, url, path)) <==> q
  {
    var line := Render(Clone(q, url, path));
    if !q {
      assert line[10] == ' ';
      assert "git clone --quiet "[10] == '-';
    }
  }

  /** A pull line ends in `pull --quiet` exactly when the command is quiet. */
  lemma PullQuietFlag(path: string, q: bool)
    ensures IsSuffixOf(" pull --quiet", Render(Pull(path, q))) <==> q
  {
    var line := Render(Pull(path, q));
    if !q {
      assert line[|line| - 1] == ' ';
    }
  }

  /** The flag appears exactly when the repository is not verbose, whichever
      command the plan chose. */
  lemma QuietUnlessVerbose(repo: Repo, clonedDirExists: bool, repoPathExists: bool)
    ensures var line := Render(PlanAcquire(repo, clonedDirExists, repoPathExists).command);
      if repoPathExists then (IsSuffixOf(" pull --quiet", line) <==> !repo.verbose)
      else ("git clone --quiet " <= line <==> !repo.verbose)
  {
    var c := PlanAcquire(repo, clonedDirExists, repoPathExists).command;
    match c
    case Clone(q, url, path) => CloneQuietFlag(q, url, path);
    case Pull(path, q) => PullQuietFlag(path, q);
  }

  // ------------------------------------------------------------ shell words

  /** Index of the first blank in `s`. */
  function FirstBlank(s: string): (i: nat)
    requires ' ' in s
    ensures i < |s| && s[i] == ' ' && ' ' !in s[..i]
  {
    if s[0] == ' ' then 0
    else
      var i := FirstBlank(s[1..]);
      assert s[..i + 1] == [s[0]] + s[1..][..i];
      i + 1
  }

  /** The arguments `sh` cuts a line into when it holds no quotes or other
      metacharacters: the maximal runs of non-blank characters. */
  function Words(s: string): (ws: seq<string>)
    decreases |s|
  {
    if ' ' !in s then (if s == "" then [] else [s])
    else
      var i := FirstBlank(s);
      (if i == 0 then [] else [s[..i]]) + Words(s[i + 1..])
  }

  /** The first blank is the one with no blank before it. */
  lemma FirstBlankIs(s: string, i: nat)
    requires i < |s| && s[i] == ' ' && ' ' !in s[..i]
    ensures FirstBlank(s) == i
  {
    var j := FirstBlank(s);
    forall m | 0 <= m < i
      ensures s[m] != ' '
    {
      assert s[..i][m] == s[m];
    }
    forall m | 0 <= m < j
      ensures s[m] != ' '
    {
      assert s[..j][m] == s[m];
    }
  }

  /** Cutting at the first blank: the word before it, if any, then the words
      after it. */
  lemma WordsAt(s: string, i: nat)
    requires i < |s| && s[i] == ' ' && ' ' !in s[..i]
    ensures Words(s) == (if i == 0 then [] else [s[..i]]) + Words(s[i + 1..])
  {
    FirstBlankIs(s, i);
  }

  /** The first blank of `a + " " + b` when `a` holds none: the one added. */
  lemma WordsAroundWord(a: string, b: string)
    requires ' ' !in a
    ensures Words(a + " " + b) == Words(a) + Words(b)
  {
    var s := a + " " + b;
    assert s[..|a|] == a;
    WordsAt(s, |a|);
    assert s[|a| + 1..] == b;
  }

  /** When `a` holds a blank, `a` and `a + " " + b` are cut at the same
      first blank, leaving the same word in front. */
  lemma WordsAroundBlank(a: string, b: string, k: nat)
    requires ' ' in a && k == FirstBlank(a)
    ensures var head: seq<string> := if k == 0 then [] else [a[..k]];
      && Words(a + " " + b) == head + Words(a[k + 1..] + " " + b)
      && Words(a) == head + Words(a[k + 1..])
  {
    var s := a + " " + b;
    assert s[..k] == a[..k];
    WordsAt(s, k);
    assert s[k + 1..] == a[k + 1..] + " " + b;
    WordsAt(a, k);
  }

  /** A blank separates words and leaves nothing of its own, however many
      blanks surround it. */
  lemma {:induction false} WordsAround(a: string, b: string)
    ensures Words(a + " " + b) == Words(a) + Words(b)
    decreases |a|
  {
    if ' ' !in a {
      WordsAroundWord(a, b);
    } else {
      var k := FirstBlank(a);
      var rest := a[k + 1..];
      var head: seq<string> := if k == 0 then [] else [a[..k]];
      WordsAroundBlank(a, b, k);
      WordsAround(rest, b);
      Associate(head, Words(rest), Words(b));
    }
  }

  lemma Associate<T>(x: seq<T>, y: seq<T>, z: seq<T>)
    ensures x + (y + z) == (x + y) + z
  {
  }

  /** A single blank-free word is one argument. */
  lemma OneWord(w: string)
    requires w != "" && ' ' !in w
    ensures Words(w) == [w]
  {
  }

  /** The fixed words of the two command lines. */
  lemma FixedWords()
    ensures Words("git") == ["git"] && Words("clone") == ["clone"]
    ensures Words("-C") == ["-C"] && Words("pull") == ["pull"]
  {
    OneWord("git");
    OneWord("clone");
    OneWord("-C");
    OneWord("pull");
  }

  /** The flag is one argument when quiet and none otherwise. */
  lemma FlagWords(q: bool)
    ensures Words(QuietFlag(q)) == (if q then ["--quiet"] else [])
  {
    if q {
      OneWord("--quiet");
    }
  }

  /** Four blank-separated parts give their words in order. */
  lemma WordsOfFour(a: string, b: string, c: string, d: string)
    ensures Words(a + " " + (b + " " + (c + " " + d))) == Words(a) + Words(b) + Words(c) + Words(d)
  {
    WordsAround(c, d);
    WordsAround(b, c + " " + d);
    WordsAround(a, b + " " + (c + " " + d));
  }

  /** Two blank-free words separated by one blank are two arguments. */
  lemma TwoWords(a: string, b: string)
    requires a != "" && ' ' !in a && b != "" && ' ' !in b
    ensures Words(a + " " + b) == [a, b]
  {
    WordsAround(a, b);
    OneWord(a);
    OneWord(b);
  }

  /** The clone line as its blank-separated parts. */
  lemma CloneLine(q: bool, url: string, path: string)
    ensures Render(Clone(q, url, path)) == "git" + " " + ("clone" + " " + (QuietFlag(q) + " " + (url + " " + path)))
  {
    var flag := QuietFlag(q);
    assert "git clone " == "git" + " " + ("clone" + " ");
    Associate("git clone ", flag, " " + (url + " " + path));
    Associate("git" + " ", "clone" + " ", flag + " " + (url + " " + path));
  }

  /** The pull line as its blank-separated parts. */
  lemma PullLine(path: string, q: bool)
    ensures Render(Pull(path, q)) == "git" + " " + ("-C" + " " + (path + " " + ("pull" + " " + QuietFlag(q))))
  {
  }

  /** The tail of a pull line: `pull` and the flag's words. */
  lemma PullFlag(q: bool)
    ensures Words("pull" + " " + QuietFlag(q)) == ["pull"] + (if q then ["--quiet"] else [])
  {
    WordsAround("pull", QuietFlag(q));
    FixedWords();
    FlagWords(q);
  }

  /** The arguments of a clone: a verbose run's empty flag leaves no empty
      argument behind, and the URL and path arrive whole when they hold no
      blank. */
  lemma CloneWords(q: bool, url: string, path: string)
    requires url != "" && ' ' !in url && path != "" && ' ' !in path
    ensures Words(Render(Clone(q, url, path))) == ["git", "clone"] + (if q then ["--quiet"] else []) + [url, path]
  {
    var f: seq<string> := if q then ["--quiet"] else [];
    CloneLine(q, url, path);
    WordsOfFour("git", "clone", QuietFlag(q), url + " " + path);
    TwoWords(url, path);
    FixedWords();
    FlagWords(q);
    RegroupTwo("git", "clone", f, [url, path]);
  }

  /** Two single items followed by two tails, regrouped. */
  lemma RegroupTwo<T>(a: T, b: T, f: seq<T>, g: seq<T>)
    ensures [a] + [b] + f + g == [a, b] + f + g
  {
  }

  /** Four single items followed by a tail, regrouped. */
  lemma Regroup<T>(a: T, b: T, c: T, d: T, f: seq<T>)
    ensures [a] + [b] + [c] + ([d] + f) == [a, b, c, d] + f
  {
  }

  /** The arguments of a pull, with the same two guarantees. */
  lemma PullWords(path: string, q: bool)
    requires path != "" && ' ' !in path
    ensures Words(Render(Pull(path, q))) == ["git", "-C", path, "pull"] + (if q then ["--quiet"] else [])
  {
    var f: seq<string> := if q then ["--quiet"] else [];
    PullLine(path, q);
    WordsOfFour("git", "-C", path, "pull" + " " + QuietFlag(q));
    PullFlag(q);
    OneWord(path);
    FixedWords();
    Regroup("git", "-C", path, "pull", f);
  }
}

=== FILE: naming.dfy ===
/** Construction of a `Repo` (repo.py `Repo.__init__`): the organisation and
    repository name cut out of the clone URL, and the clone and results paths
    built from them. */
module Naming {
  import opened Wrappers
  import opened Text
  import opened Paths

  /** The two directories the `constants` module supplies. */
  datatype Layout = Layout(clonedReposPath: string, resultsPath: string)

  /** The constructor arguments the scan depends on. `searchList` is the list
      after any merge with secret-store terms. */
  datatype Options = Options(
    repoUrl: string,
    searchList: Option<seq<string>>,
    source: Option<seq<string>>,
    verbose: bool,
    resultsDir: Option<string>,
    clonedRepoDir: Option<string>)

  datatype Repo = Repo(
    repoUrl: string,
    searchList: Option<seq<string>>,
    verbose: bool,
    organization: string,
    repoName: string,
    clonedRepoDir: string,
    repoPath: string,
    resultsFilePath: string)

  const ResultsFileName := "results.json"

  /** Python truthiness of an optional path: `None` and `''` are both false. */
  predicate Given(o: Option<string>) {
    o.Some? && o.value != ""
  }

  /** `repo_url.rsplit('.com/', 1)[-1].rsplit('/', 1)[0]`: the text after the
      last `.com/`, cut at its last `/` when it has one. */
  function Organization(url: string): (org: string)
    ensures var t := AfterLast(url, ".com/");
      && org <= t
      && (!Contains(t, "/") ==> org == t)
      && (Contains(t, "/") ==> OccursAt(t, "/", |org|) && forall j :: |org| < j ==> !OccursAt(t, "/", j))
  {
    BeforeLast(AfterLast(url, ".com/"), "/")
  }

  /** `repo_url.rsplit('/', 1)[-1].rsplit('.', 1)[0]`: the last path segment,
      cut at its last `.` when it has one. */
  function RepoName(url: string): (name: string)
    ensures '/' !in name
    ensures var seg := AfterLast(url, "/");
      && name <= seg
      && (!Contains(seg, ".") ==> name == seg)
      && (Contains(seg, ".") ==> OccursAt(seg, ".", |name|) && forall j :: |name| < j ==> !OccursAt(seg, ".", j))
  {
    var last := AfterLast(url, "/");
    var name := BeforeLast(last, ".");
    assert '/' !in name by {
      forall m | 0 <= m < |name|
        ensures name[m] != '/'
      {
        assert name[m] == last[m];
        OccursAtChar(last, '/', m);
      }
    }
    name
  }

  /** `cloned_repo_dir or os.path.join(organization, CLONED_REPOS_PATH)` */
  function ClonedRepoDir(given: Option<string>, org: string, layout: Layout): (dir: string)
    ensures Given(given) ==> dir == given.value
    ensures !Given(given) && !IsAbsolute(layout.clonedReposPath) ==> org <= dir
    ensures IsSuffixOf(layout.clonedReposPath, dir) || Given(given)
    ensures !Given(given) && IsAbsolute(layout.clonedReposPath) ==> dir == layout.clonedReposPath
    ensures !Given(given) && !IsAbsolute(layout.clonedReposPath) ==>
      dir == org + "/" + layout.clonedReposPath
      || ((org == "" || IsSuffixOf("/", org)) && dir == org + layout.clonedReposPath)
  {
    if Given(given) then given.value else PathJoin(org, layout.clonedReposPath)
  }

  /** The results file name is a single relative path component. */
  lemma ResultsFileNameIsComponent()
    ensures ResultsFileName != "" && '/' !in ResultsFileName && !IsAbsolute(ResultsFileName)
  {
  }

  /** `os.path.join(results_dir, 'results.json')` for a given directory `d`:
      the file sits directly in `d`, separated by one `/`. */
  lemma ResultsInGiven(d: string)
    requires d != ""
    ensures var path := PathJoin(d, ResultsFileName);
      && Basename(path) == ResultsFileName
      && d <= path
      && (path == d + "/" + ResultsFileName || (IsSuffixOf("/", d) && path == d + ResultsFileName))
  {
    ResultsFileNameIsComponent();
    BasenameOfJoin(d, ResultsFileName);
    JoinShape(d, ResultsFileName);
  }

  /** `<RESULTS_PATH>/<organization>/results.json`: for a non-empty,
      slash-free organisation, exactly one `/` separates it from the file. */
  lemma ResultsInDefault(resultsPath: string, org: string)
    ensures var path := PathJoin(PathJoin(resultsPath, org), ResultsFileName);
      && Basename(path) == ResultsFileName
      && (!IsAbsolute(org) ==> resultsPath <= path)
      && (org != "" && '/' !in org ==>
            && IsSuffixOf(org + "/" + ResultsFileName, path)
            && (path == resultsPath + "/" + org + "/" + ResultsFileName
                || ((resultsPath == "" || IsSuffixOf("/", resultsPath))
                    && path == resultsPath + org + "/" + ResultsFileName)))
  {
    var dir := PathJoin(resultsPath, org);
    ResultsFileNameIsComponent();
    BasenameOfJoin(dir, ResultsFileName);
    if org != "" && '/' !in org {
      JoinAfterComponent(dir, org, ResultsFileName);
      JoinTwo(resultsPath, org, ResultsFileName);
    }
  }

  /** `<results_dir>/results.json`, or `<RESULTS_PATH>/<organization>/results.json`. */
  function ResultsFilePath(given: Option<string>, org: string, layout: Layout): (path: string)
    ensures Basename(path) == ResultsFileName
    ensures Given(given) ==> given.value <= path
    ensures !Given(given) && !IsAbsolute(org) ==> layout.resultsPath <= path
    ensures !Given(given) && org != "" && '/' !in org ==> IsSuffixOf(org + "/" + ResultsFileName, path)
    ensures Given(given) ==>
      path == given.value + "/" + ResultsFileName
      || (IsSuffixOf("/", given.value) && path == given.value + ResultsFileName)
    ensures !Given(given) && org != "" && '/' !in org ==>
      path == layout.resultsPath + "/" + org + "/" + ResultsFileName
      || ((layout.resultsPath == "" || IsSuffixOf("/", layout.resultsPath))
          && path == layout.resultsPath + org + "/" + ResultsFileName)
  {
    if Given(given) then
      ResultsInGiven(given.value);
      PathJoin(given.value, ResultsFileName)
    else
      ResultsInDefault(layout.resultsPath, org);
      PathJoin(PathJoin(layout.resultsPath, org), ResultsFileName)
  }

  function NewRepo(opts: Options, layout: Layout): (r: Repo)
    ensures r.repoUrl == opts.repoUrl && r.searchList == opts.searchList && r.verbose == opts.verbose
    ensures r.organization == Organization(opts.repoUrl)
    ensures r.repoName == RepoName(opts.repoUrl)
    ensures r.clonedRepoDir == ClonedRepoDir(opts.clonedRepoDir, r.organization, layout)
    ensures r.repoPath == PathJoin(r.clonedRepoDir, r.repoName)
    ensures Basename(r.repoPath) == r.repoName
    ensures r.resultsFilePath == ResultsFilePath(opts.resultsDir, r.organization, layout)
  {
    var org := Organization(opts.repoUrl);
    var name := RepoName(opts.repoUrl);
    var cloned := ClonedRepoDir(opts.clonedRepoDir, org, layout);
    BasenameOfJoin(cloned, name);
    Repo(opts.repoUrl, opts.searchList, opts.verbose, org, name, cloned,
         PathJoin(cloned, name), ResultsFilePath(opts.resultsDir, org, layout))
  }

  /** After the host's `.com/`, no other `.com/` starts: neither inside the
      `.com/` itself, nor in `u`, nor reaching into the `/`-free tail `v`. */
  lemma HostSeparatorIsLast(host: string, u: string, v: string)
    requires !Contains(u, ".com/")
    requires '/' !in v
    ensures forall j :: |host| < j ==> !OccursAt(host + ".com/" + u + v, ".com/", j)
  {
    var url := host + ".com/" + u + v;
    var a := |host| + 5;
    var b := a + |u|;
    assert forall k :: b <= k < |url| ==> url[k] == v[k - b];
    forall j | |host| < j && OccursAt(url, ".com/", j)
      ensures false
    {
      assert url[j..j + 5][0] == url[j] && url[j..j + 5][4] == url[j + 4];
      if a <= j && j + 5 <= b {
        assert url[j..j + 5] == u[j - a..j - a + 5];
        assert OccursAt(u, ".com/", j - a);
      }
    }
  }

  lemma OrganizationOfCanonicalUrl(host: string, org: string, name: string)
    requires !Contains(org + "/", ".com/")
    requires '/' !in name
    ensures Organization(host + ".com/" + org + "/" + name + ".git") == org
  {
    var u := org + "/";
    var v := name + ".git";
    var url := host + ".com/" + org + "/" + name + ".git";
    assert '/' !in v by {
      assert forall m :: 0 <= m < |v| ==> v[m] == (if m < |name| then name[m] else ".git"[m - |name|]);
    }
    assert url == host + ".com/" + u + v;
    HostSeparatorIsLast(host, u, v);
    assert url == host + ".com/" + (u + v);
    RSplitAtLast(host, ".com/", u + v);
    assert u + v == org + ['/'] + v;
    RSplitAtLastChar(org, '/', v);
  }

  lemma RepoNameOfCanonicalUrl(host: string, org: string, name: string)
    requires '/' !in name
    ensures RepoName(host + ".com/" + org + "/" + name + ".git") == name
  {
    var v := name + ".git";
    var url := host + ".com/" + org + "/" + name + ".git";
    assert '/' !in v by {
      assert forall m :: 0 <= m < |v| ==> v[m] == (if m < |name| then name[m] else ".git"[m - |name|]);
    }
    assert url == (host + ".com/" + org) + ['/'] + v;
    RSplitAtLastChar(host + ".com/" + org, '/', v);
    assert ".git" == ['.'] + "git";
    assert v == name + ['.'] + "git";
    RSplitAtLastChar(name, '.', "git");
  }

  /** For a URL of the documented shape `<host>.com/<org>/<name>.git`, the
      organisation and name come back unchanged, as long as `org` followed by
      `/` holds no `.com/` and `name` holds no `/`. */
  lemma NamesOfCanonicalUrl(host: string, org: string, name: string)
    requires !Contains(org + "/", ".com/")
    requires '/' !in name
    ensures Organization(host + ".com/" + org + "/" + name + ".git") == org
    ensures RepoName(host + ".com/" + org + "/" + name + ".git") == name
  {
    OrganizationOfCanonicalUrl(host, org, name);
    RepoNameOfCanonicalUrl(host, org, name);
  }

  /** The names cut out of the URL the scanner's own tests use. */
  lemma SurchUrlNames()
    ensures Organization("https://github.com/cloudify-cosmo/surch.git") == "cloudify-cosmo"
    ensures RepoName("https://github.com/cloudify-cosmo/surch.git") == "surch"
  {
    var org := "cloudify-cosmo";
    assert '.' !in org + "/";
    AbsentHead(org + "/", ".com/");
    assert "https://github.com/cloudify-cosmo/surch.git" == "https://github" + ".com/" + org + "/" + "surch" + ".git";
    NamesOfCanonicalUrl("https://github", org, "surch");
  }

  /** The repository the scanner's own tests use. */
  lemma SurchUrl(layout: Layout)
    ensures var r := NewRepo(Options("https://github.com/cloudify-cosmo/surch.git", None, None, false, None, None), layout);
      && r.organization == "cloudify-cosmo"
      && r.repoName == "surch"
      && r.repoPath == PathJoin(PathJoin("cloudify-cosmo", layout.clonedReposPath), "surch")
      && r.resultsFilePath == PathJoin(PathJoin(layout.resultsPath, "cloudify-cosmo"), "results.json")
  {
    SurchUrlNames();
  }
}

=== FILE: orchestrator.dfy ===
/** One scan of one repository (repo.py `Repo.search`): choose the search
    terms, acquire the repository, list its commits, search each commit and
    store one record per hit. The filesystem tests and git are inputs. */
module Orchestrator {
  import opened Wrappers
  import opened Paths
  import opened Naming
  import opened Acquire
  import opened Scanner
  import opened Results
  import opened Plugins
  import opened Text

  /** Everything outside the process the scan consults. */
  datatype World = World(clonedDirExists: bool, repoPathExists: bool, shell: Shell, helpers: Helpers)

  /** Why a scan stops before touching the repository: `sys.exit(1)` on an
      empty list, the `TypeError` of `len(None)` when no list was ever set, or
      the exit or encoding error of the source handling in the constructor. */
  datatype Rejection = NoSearchTerms | SearchListUnset | SourceRefused(outcome: SourceOutcome)

  /** What a scan that got past the term check did. */
  datatype Run = Run(plan: Plan, commits: seq<string>, hits: seq<seq<string>>, written: Written)

  datatype ScanOutcome =
    | Rejected(reason: Rejection)
    | Crashed(run: Run, sha: string)
    | Completed(run: Run, resultCount: nat, commitCount: nat)

  /** `search_list or self.search_list`: the argument wins when it is a
      non-empty list. */
  function EffectiveTerms(arg: Option<seq<string>>, own: Option<seq<string>>): (terms: Option<seq<string>>)
    ensures arg.Some? && |arg.value| > 0 ==> terms == arg
    ensures !(arg.Some? && |arg.value| > 0) ==> terms == own
    ensures terms.Some? && |terms.value| > 0 <==>
      (arg.Some? && |arg.value| > 0) || (own.Some? && |own.value| > 0)
  {
    if arg.Some? && |arg.value| > 0 then arg else own
  }

  /** A scan of `repo`, searching for `arg` or else for the repository's own
      list. Hit lines without `:` are passed over, and a failed commit listing
      reports zero commits (see the two findings in the README). */
  function Scan(repo: Repo, arg: Option<seq<string>>, world: World): (o: ScanOutcome)
    ensures o.Rejected? <==> !(EffectiveTerms(arg, repo.searchList).Some? && |EffectiveTerms(arg, repo.searchList).value| > 0)
    ensures o.Rejected? ==> (o.reason == SearchListUnset <==> EffectiveTerms(arg, repo.searchList).None?)
    ensures !o.Rejected? ==>
      && o.run.plan == PlanAcquire(repo, world.clonedDirExists, world.repoPathExists)
      && |o.run.hits| == |o.run.commits|
      && o.run.written.resultCount == |o.run.written.records| <= |Flatten(o.run.hits)|
    ensures o.Crashed? <==> !o.Rejected? && o.run.written.fault.Some?
    ensures o.Crashed? ==> o.run.written.fault == Some(ShowFailed(o.sha))
    ensures o.Completed? ==> o.resultCount == |o.run.written.records| && o.commitCount == |o.run.commits|
    ensures !o.Rejected? ==>
      && o.run.commits == AllCommits(repo.repoPath, world.shell).commits
      && o.run.hits == SearchAll(repo.repoPath, EffectiveTerms(arg, repo.searchList).value, o.run.commits, world.shell)
      && o.run.written == WriteLinesSkipping(repo, Flatten(o.run.hits), world.shell, world.helpers)
    ensures o.Rejected? ==> !o.reason.SourceRefused?
  {
    match EffectiveTerms(arg, repo.searchList)
    case None => Rejected(SearchListUnset)
    case Some(terms) =>
      if |terms| == 0 then Rejected(NoSearchTerms)
      else
        var plan := PlanAcquire(repo, world.clonedDirExists, world.repoPathExists);
        var commits := AllCommits(repo.repoPath, world.shell).commits;
        var hits := SearchAll(repo.repoPath, terms, commits, world.shell);
        var written := WriteLinesSkipping(repo, Flatten(hits), world.shell, world.helpers);
        var run := Run(plan, commits, hits, written);
        match written.fault
        case None => Completed(run, written.resultCount, |commits|)
        case Some(fault) => Crashed(run, fault.sha)
  }

  /** The module-level `search(repo_url, search_list, source, ...)` without a
      configuration file: the constructor handles the sources with no config
      file, then the repository is built and scanned with its own list. */
  function Search(opts: Options, layout: Layout, world: World): (o: ScanOutcome)
    ensures var sourced := opts.source.Some? && |opts.source.value| > 0;
      && (o.Rejected? <==> sourced || !(opts.searchList.Some? && |opts.searchList.value| > 0))
      && (sourced ==> o.Rejected? && o.reason.SourceRefused?)
      && (sourced ==> var first := opts.source.value[0];
            o.reason.outcome == if IsAscii(first) then Exit(1) else EncodeFailure(first))
    ensures !o.Rejected? ==> o.run.plan.command.path == PathJoin(ClonedRepoDir(opts.clonedRepoDir, Organization(opts.repoUrl), layout), RepoName(opts.repoUrl))
    ensures !o.Rejected? ==> o.run.hits == SearchAll(NewRepo(opts, layout).repoPath, opts.searchList.value, o.run.commits, world.shell)
  {
    var handled := HandleSources(opts.source, None);
    if handled != NoSource then Rejected(SourceRefused(handled))
    else Scan(NewRepo(opts, layout), None, world)
  }

  /** A missing and an empty argument both fall back to the repository's own
      list, and passing that list explicitly changes nothing. */
  lemma FalsyArgumentFallsBack(repo: Repo, world: World)
    ensures Scan(repo, None, world) == Scan(repo, Some([]), world)
    ensures repo.searchList.Some? ==> Scan(repo, None, world) == Scan(repo, repo.searchList, world)
  {
    assert EffectiveTerms(None, repo.searchList) == EffectiveTerms(Some([]), repo.searchList);
    if repo.searchList.Some? && |repo.searchList.value| > 0 {
      assert EffectiveTerms(repo.searchList, repo.searchList) == repo.searchList;
    }
  }

  /** Every stored record belongs to one hit line of one searched commit, and
      that line is the record's `sha:path`. */
  lemma {:induction false} RecordsComeFromHits(repo: Repo, arg: Option<seq<string>>, world: World)
    ensures var o := Scan(repo, arg, world);
      !o.Rejected? ==> forall k :: 0 <= k < |o.run.written.records| ==>
        var f := o.run.written.records[k];
        exists i :: 0 <= i < |o.run.commits| && f.commitSha + ":" + f.filepath in o.run.hits[i]
  {
    var o := Scan(repo, arg, world);
    if !o.Rejected? {
      var lines := Flatten(o.run.hits);
      var kept := KeepWellFormed(lines);
      assert o.run.written == WriteLines(repo, kept, world.shell, world.helpers);
      WriteLinesRecords(repo, kept, world.shell, world.helpers);
      forall k | 0 <= k < |o.run.written.records|
        ensures var f := o.run.written.records[k];
          exists i :: 0 <= i < |o.run.commits| && f.commitSha + ":" + f.filepath in o.run.hits[i]
      {
        var f := o.run.written.records[k];
        RecordFields(repo, kept[k], f, world.shell, world.helpers);
        assert kept[k] in lines;
        FlattenMembers(o.run.hits, kept[k]);
      }
    }
  }

  /** The scan completes exactly when every well-formed hit line's commit can
      be shown; it then stores one record per well-formed line. */
  lemma {:induction false} CompletesWhenShowable(repo: Repo, arg: Option<seq<string>>, world: World)
    ensures var o := Scan(repo, arg, world);
      !o.Rejected? ==>
        var kept := KeepWellFormed(Flatten(o.run.hits));
        && (o.Completed? <==> forall i :: 0 <= i < |kept| ==> Writable(repo, kept[i], world.shell))
        && (o.Completed? ==> o.resultCount == |kept|)
  {
    var o := Scan(repo, arg, world);
    if !o.Rejected? {
      var kept := KeepWellFormed(Flatten(o.run.hits));
      WriteLinesFault(repo, kept, world.shell, world.helpers);
    }
  }

  /** When the commit listing fails nothing is searched and nothing stored:
      the scan completes with zero results in zero commits, while the code as
      written never sets the commit count it then reports. */
  lemma FailedListing(repo: Repo, arg: Option<seq<string>>, world: World)
    requires world.shell(RevListCommand(repo.repoPath)).None?
    requires !Scan(repo, arg, world).Rejected?
    ensures AllCommits(repo.repoPath, world.shell).counted.None?
    ensures var o := Scan(repo, arg, world);
      o.Completed? && o.run.commits == [] && o.run.hits == [] && o.run.written.lookups == []
      && o.resultCount == 0 && o.commitCount == 0
  {
    var none: seq<string> := [];
    assert KeepWellFormed(Flatten([])) == none;
  }
}

=== FILE: paths.dfy ===
/** The part of Python's `posixpath` used to lay out clone and result paths. */
module Paths {
  import opened Text

  predicate IsAbsolute(p: string) {
    |p| > 0 && p[0] == '/'
  }

  /** `os.path.join(a, b)`: an absolute `b` replaces `a`; otherwise `b` is
      appended, with a `/` in between unless `a` is empty or already ends in one. */
  function PathJoin(a: string, b: string): (r: string)
    ensures |b| <= |r| && r[|r| - |b|..] == b
    ensures IsAbsolute(b) ==> r == b
    ensures !IsAbsolute(b) ==> |a| <= |r| && r[..|a|] == a
    ensures !IsAbsolute(b) ==> |r| == |a| + |b| || (|r| == |a| + 1 + |b| && r[|a|] == '/')
  {
    if IsAbsolute(b) then b
    else if |a| == 0 || a[|a| - 1] == '/' then a + b
    else a + "/" + b
  }

  /** `os.path.basename(p)`: the text after the last `/`. */
  function Basename(p: string): (r: string)
    ensures '/' !in r
    ensures IsSuffixOf(r, p)
  {
    var r := AfterLast(p, "/");
    assert '/' !in r by {
      forall m | 0 <= m < |r|
        ensures r[m] != '/'
      {
        OccursAtChar(r, '/', m);
      }
    }
    r
  }

  /** Joining a single path component `b` onto any directory leaves `b` as the
      basename of the result. */
  lemma BasenameOfJoin(a: string, b: string)
    requires '/' !in b
    ensures Basename(PathJoin(a, b)) == b
  {
    AbsentChar(b, '/');
    if |a| == 0 {
      assert PathJoin(a, b) == b;
    } else if a[|a| - 1] == '/' {
      assert PathJoin(a, b) == a[..|a| - 1] + "/" + b;
      RSplitAtLastChar(a[..|a| - 1], '/', b);
    } else {
      RSplitAtLastChar(a, '/', b);
    }
  }

  /** Joining a relative `c` onto a directory that ends in the component `b`
      puts `b`, one `/` and `c` at the end. */
  lemma JoinAfterComponent(a: string, b: string, c: string)
    requires |b| > 0 && '/' !in b && IsSuffixOf(b, a)
    requires !IsAbsolute(c)
    ensures IsSuffixOf(b + "/" + c, PathJoin(a, c))
  {
    assert a[|a| - 1] == b[|b| - 1];
    var r := PathJoin(a, c);
    assert r == a + "/" + c;
    assert r[|r| - |b + "/" + c|..] == a[|a| - |b|..] + "/" + c;
  }

  /** A relative `c` is joined onto `a` either after one added `/`, or directly
      when `a` is empty or already ends in `/`. */
  lemma JoinShape(a: string, c: string)
    requires !IsAbsolute(c)
    ensures PathJoin(a, c) == a + "/" + c
      || ((a == "" || IsSuffixOf("/", a)) && PathJoin(a, c) == a + c)
  {
  }

  /** Two relative components joined in turn onto `a`: `b` is placed as
      `JoinShape` says, and exactly one `/` separates it from `c`. */
  lemma JoinTwo(a: string, b: string, c: string)
    requires b != "" && '/' !in b && !IsAbsolute(c)
    ensures PathJoin(PathJoin(a, b), c) == a + "/" + b + "/" + c
      || ((a == "" || IsSuffixOf("/", a)) && PathJoin(PathJoin(a, b), c) == a + b + "/" + c)
  {
  }
}

=== FILE: pattern.dfy ===
/** The pattern compiler: `Repo._create_search_string` turns the search terms
    into the OR-expression handed to `git grep -e`. */
module Pattern {
  import opened Wrappers
  import opened Text

  /** What `git grep` reads between two alternatives. */
  const OrSeparator := " --or -e "

  function Quote(term: string): string {
    "'" + term + "'"
  }

  function QuoteAll(terms: seq<string>): (quoted: seq<string>)
    ensures |quoted| == |terms|
    ensures forall i :: 0 <= i < |terms| ==> quoted[i] == Quote(terms[i])
  {
    seq(|terms|, i requires 0 <= i < |terms| => Quote(terms[i]))
  }

  /** Every term wrapped in single quotes, in input order, joined by the
      OR separator; nothing is escaped or removed. */
  function SearchString(terms: seq<string>): (r: string)
    ensures r == "" <==> |terms| == 0
    ensures |terms| == 1 ==> r == Quote(terms[0])
  {
    Join(QuoteAll(terms), OrSeparator)
  }

  lemma SearchStringCons(terms: seq<string>)
    requires |terms| >= 2
    ensures SearchString(terms) == Quote(terms[0]) + OrSeparator + SearchString(terms[1..])
  {
    assert QuoteAll(terms)[1..] == QuoteAll(terms[1..]);
  }

  // ------------------------------------------------------------ the inverse

  /** Reads back a sequence of quoted terms separated by `OrSeparator`; a term
      ends at the first closing quote. */
  function ParseQuoted(s: string): Option<seq<string>>
    decreases |s|
  {
    if |s| == 0 || s[0] != '\'' then None
    else
      match IndexFrom(s, "'", 1)
      case None => None
      case Some(j) =>
        var term := s[1..j];
        var rest := s[j + 1..];
        if rest == "" then Some([term])
        else if |rest| >= |OrSeparator| && rest[..|OrSeparator|] == OrSeparator then
          match ParseQuoted(rest[|OrSeparator|..])
          case None => None
          case Some(more) => Some([term] + more)
        else None
  }

  function ParseSearchString(s: string): Option<seq<string>>
  {
    if s == "" then Some([]) else ParseQuoted(s)
  }

  /** The closing quote of a quote-free term is the first quote after the opening one. */
  lemma ClosingQuote(t: string, rest: string)
    requires '\'' !in t
    ensures IndexFrom(Quote(t) + rest, "'", 1) == Some(|t| + 1)
  {
    var s := Quote(t) + rest;
    OccursAtChar(s, '\'', |t| + 1);
    var r := IndexFrom(s, "'", 1);
    assert r.Some?;
    OccursAtChar(s, '\'', r.value);
    assert forall m :: 1 <= m <= |t| ==> s[m] == t[m - 1];
    assert r.value == |t| + 1;
  }

  lemma {:induction false} ParseQuotedRoundTrip(terms: seq<string>)
    requires |terms| > 0
    requires forall i :: 0 <= i < |terms| ==> '\'' !in terms[i]
    ensures ParseQuoted(SearchString(terms)) == Some(terms)
    decreases |terms|
  {
    var t := terms[0];
    if |terms| == 1 {
      ClosingQuote(t, "");
      assert Quote(t) + "" == Quote(t);
      assert SearchString(terms) == Quote(t);
      assert Quote(t)[1..|t| + 1] == t;
      assert Quote(t)[|t| + 2..] == "";
      assert terms == [t];
    } else {
      var tail := SearchString(terms[1..]);
      var rest := OrSeparator + tail;
      SearchStringCons(terms);
      assert SearchString(terms) == Quote(t) + rest;
      ClosingQuote(t, rest);
      var s := Quote(t) + rest;
      assert s[1..|t| + 1] == t;
      assert s[|t| + 2..] == rest;
      assert rest[..|OrSeparator|] == OrSeparator;
      assert rest[|OrSeparator|..] == tail;
      ParseQuotedRoundTrip(terms[1..]);
      assert [t] + terms[1..] == terms;
    }
  }

  /** Terms without a single quote are recovered exactly, in order and with
      repetitions: the expression loses nothing. */
  lemma SearchStringRoundTrip(terms: seq<string>)
    requires forall i :: 0 <= i < |terms| ==> '\'' !in terms[i]
    ensures ParseSearchString(SearchString(terms)) == Some(terms)
  {
    if |terms| > 0 {
      ParseQuotedRoundTrip(terms);
    }
  }

  /** No escaping: a term holding the quote-and-separator text produces the same
      expression as two separate terms. */
  lemma NoEscaping()
    ensures SearchString(["a' --or -e 'b"]) == SearchString(["a", "b"])
  {
    SearchStringCons(["a", "b"]);
    assert ["a", "b"][1..] == ["b"];
  }

  /** Three terms: each quoted, in order, with a separator between each pair. */
  lemma SearchStringThree(a: string, b: string, c: string)
    ensures SearchString([a, b, c]) == Quote(a) + OrSeparator + Quote(b) + OrSeparator + Quote(c)
  {
    var terms := [a, b, c];
    assert terms[1..] == [b, c];
    assert [b, c][1..] == [c];
    SearchStringCons([b, c]);
    SearchStringCons(terms);
  }

  lemma ThreeTerms()
    ensures SearchString(["a", "b", "c"]) == "'a' --or -e 'b' --or -e 'c'"
  {
    SearchStringThree("a", "b", "c");
  }
}

=== FILE: plugins.dfy ===
/** The plugin front end (plugins/handler.py): normalisation of the requested
    secret sources, and the configuration checks made before the secret store
    is asked for search terms. The store client itself is outside the model. */
module Plugins {
  import opened Wrappers
  import opened Text
  import opened Naming

  /** The default key patterns handed to the secret store. */
  const KeyList: seq<string> :=
    [".*password.*", ".*key.*", ".*secret.*", ".*id.*", ".*endpoint.*", ".*tenant.*", ".*api.*"]

  // ---------------------------------------------------------------- sources

  /** What `plugins_handle` does with a source list. */
  datatype SourceOutcome =
    | NoSource                      // the empty value `''`
    | Sources(names: seq<string>)   // the lowered list
    | Exit(code: int)               // `sys.exit(1)`: sources without a config file
    | EncodeFailure(value: string)  // `encode('ascii')` raised on this value

  /** `p[k]` is the first value that is not plain ASCII. */
  predicate FirstNonAsciiAt(p: seq<string>, k: int) {
    && 0 <= k < |p|
    && !IsAscii(p[k])
    && forall j :: 0 <= j < k ==> IsAscii(p[j])
  }

  /** The first value at or after `from` that is not plain ASCII, if any. */
  function FirstNonAscii(p: seq<string>, from: nat): (k: Option<nat>)
    requires from <= |p|
    ensures k.Some? ==> from <= k.value < |p| && !IsAscii(p[k.value])
    ensures k.Some? ==> forall j :: from <= j < k.value ==> IsAscii(p[j])
    ensures k.None? ==> forall j :: from <= j < |p| ==> IsAscii(p[j])
    decreases |p| - from
  {
    if from == |p| then None
    else if !IsAscii(p[from]) then Some(from)
    else FirstNonAscii(p, from + 1)
  }

  function LowerAll(p: seq<string>): (names: seq<string>)
    ensures |names| == |p|
    ensures forall j :: 0 <= j < |p| ==> names[j] == LowerAscii(p[j])
  {
    seq(|p|, j requires 0 <= j < |p| => LowerAscii(p[j]))
  }

  /** What `plugins_handle(plugins_list, config_file)` returns or raises, as a
      whole: the empty value for an empty list; otherwise a failure on the
      first value when it is not ASCII, an exit when there is no config file,
      and with one the lowered list unless some later value is not ASCII. */
  function HandleSources(plugins: Option<seq<string>>, configFile: Option<string>): (o: SourceOutcome)
    ensures !(plugins.Some? && |plugins.value| > 0) ==> o == NoSource
    ensures plugins.Some? && |plugins.value| > 0 ==> var p := plugins.value;
      && (o.Sources? <==> Given(configFile) && forall j :: 0 <= j < |p| ==> IsAscii(p[j]))
      && (o.Sources? ==> |o.names| == |p| && forall j :: 0 <= j < |p| ==> o.names[j] == LowerAscii(p[j]))
      && (o.Exit? <==> !Given(configFile) && IsAscii(p[0]))
      && (o.Exit? ==> o.code == 1)
      && (o.EncodeFailure? <==> exists k :: FirstNonAsciiAt(p, k) && (k == 0 || Given(configFile)))
      && (o.EncodeFailure? ==> exists k :: FirstNonAsciiAt(p, k) && o.value == p[k])
  {
    if plugins.None? || |plugins.value| == 0 then NoSource
    else
      var p := plugins.value;
      if !IsAscii(p[0]) then
        assert FirstNonAsciiAt(p, 0);
        EncodeFailure(p[0])
      else if !Given(configFile) then Exit(1)
      else
        match FirstNonAscii(p, 0)
        case Some(k) =>
          assert FirstNonAsciiAt(p, k);
          EncodeFailure(p[k])
        case None => Sources(LowerAll(p))
  }

  /** `plugins_handle(plugins_list, config_file)`, value by value as the code
      loops: each value is encoded and lowered, and the config file is checked
      after the first one, so without a config file only the first value is
      ever looked at. The loop computes exactly `HandleSources`. */
  method PluginsHandle(plugins: Option<seq<string>>, configFile: Option<string>) returns (o: SourceOutcome)
    ensures o == HandleSources(plugins, configFile)
  {
    if plugins.None? || |plugins.value| == 0 {
      return NoSource;
    }
    var p := plugins.value;
    var lowered: seq<string> := [];
    var i := 0;
    while i < |p|
      invariant 0 <= i <= |p|
      invariant |lowered| == i
      invariant forall j :: 0 <= j < i ==> IsAscii(p[j]) && lowered[j] == LowerAscii(p[j])
      invariant i > 0 ==> Given(configFile)
    {
      if !IsAscii(p[i]) {
        assert FirstNonAscii(p, 0) == Some(i) || i == 0;
        return EncodeFailure(p[i]);
      }
      lowered := lowered + [LowerAscii(p[i])];
      if !Given(configFile) {
        return Exit(1);
      }
      i := i + 1;
    }
    assert lowered == LowerAll(p);
    return Sources(lowered);
  }

  /** `'vault' in self.source`: only a lowered list can name the store; the
      empty value `''` contains no `'vault'`. */
  predicate WantsVault(o: SourceOutcome) {
    o.Sources? && "vault" in o.names
  }

  /** `vault_trigger` is called (the test `'vault' in self.source` holds)
      exactly when a config file is given, every source is ASCII, and some
      source is `vault` in any mix of cases. It may still exit before asking
      the store, as `VaultTrigger` states. */
  lemma VaultRequested(plugins: Option<seq<string>>, configFile: Option<string>)
    ensures WantsVault(HandleSources(plugins, configFile)) <==>
      && plugins.Some? && Given(configFile)
      && (forall j :: 0 <= j < |plugins.value| ==> IsAscii(plugins.value[j]))
      && exists j :: 0 <= j < |plugins.value| && LowerAscii(plugins.value[j]) == "vault"
  {
    var o := HandleSources(plugins, configFile);
    if o.Sources? {
      var p := plugins.value;
      if "vault" in o.names {
        var j :| 0 <= j < |o.names| && o.names[j] == "vault";
        assert LowerAscii(p[j]) == "vault";
      }
      if exists j :: 0 <= j < |p| && LowerAscii(p[j]) == "vault" {
        var j :| 0 <= j < |p| && LowerAscii(p[j]) == "vault";
        assert o.names[j] == "vault";
      }
    }
  }

  /** A normalised source list is already in lower case, so normalising it
      again gives it back. */
  lemma SourcesAreLowered(p: seq<string>, names: seq<string>)
    requires |names| == |p|
    requires forall j :: 0 <= j < |p| ==> names[j] == LowerAscii(p[j])
    ensures forall j :: 0 <= j < |names| ==> LowerAscii(names[j]) == names[j]
  {
    forall j | 0 <= j < |names|
      ensures LowerAscii(names[j]) == names[j]
    {
      LowerAsciiIdempotent(p[j]);
    }
  }

  // ------------------------------------------------------------------ vault

  /** A value read from the configuration file. */
  datatype Value = Scalar(s: string) | Items(items: seq<Value>) | Section(entries: map<string, Value>)

  /** `KEY_LIST` as a configuration value. */
  function Patterns(): (v: Value)
    ensures v.Items? && |v.items| == |KeyList|
    ensures forall i :: 0 <= i < |KeyList| ==> v.items[i] == Scalar(KeyList[i])
  {
    Items(seq(|KeyList|, i requires 0 <= i < |KeyList| => Scalar(KeyList[i])))
  }

  /** What `vault_trigger` does. `Request` carries the arguments of the
      store call, whose answer is what the function returns. */
  datatype VaultOutcome =
    | ConfigMissing                  // no config file: exit 1
    | NotASection                    // `vault` is not a mapping: the lookup raises `TypeError`
    | MissingArgument(key: string)   // a store argument is absent: exit 1
    | Request(vaultUrl: Value, vaultToken: Value, secretPath: Value, keyList: Value)

  /** The entries the store arguments are read from: the `vault` mapping, or
      the whole file when it has none (the `KeyError` is only logged). */
  function VaultSection(conf: map<string, Value>): (section: Option<map<string, Value>>)
    ensures "vault" !in conf ==> section == Some(conf)
    ensures "vault" in conf ==> (section.Some? <==> conf["vault"].Section?)
  {
    if "vault" !in conf then Some(conf)
    else match conf["vault"]
      case Section(entries) => Some(entries)
      case _ => None
  }

  /** `vault_trigger(config_file)`; `conf` is what the configuration reader
      returns for that file. */
  function VaultTrigger(configFile: Option<string>, conf: map<string, Value>): (o: VaultOutcome)
    ensures !Given(configFile) <==> o == ConfigMissing
    ensures o == NotASection <==> Given(configFile) && VaultSection(conf).None?
    ensures o.Request? ==> var section := VaultSection(conf).value;
      && "vault_url" in section && "vault_token" in section && "secret_path" in section
      && o.vaultUrl == section["vault_url"]
      && o.vaultToken == section["vault_token"]
      && o.secretPath == section["secret_path"]
    ensures o.MissingArgument? ==>
      o.key in ["vault_url", "vault_token", "secret_path"] && o.key !in VaultSection(conf).value
  {
    if !Given(configFile) then ConfigMissing
    else match VaultSection(conf)
      case None => NotASection
      case Some(section) =>
        var keyList := if "key_list" in section then section["key_list"] else Patterns();
        if "vault_url" !in section then MissingArgument("vault_url")
        else if "vault_token" !in section then MissingArgument("vault_token")
        else if "secret_path" !in section then MissingArgument("secret_path")
        else Request(section["vault_url"], section["vault_token"], section["secret_path"], keyList)
  }

  /** With a config file and a mapping to read from, the store is asked
      exactly when all three arguments are present, and otherwise the first
      missing one, in the order the call reads them, is reported. */
  lemma VaultArguments(configFile: Option<string>, conf: map<string, Value>)
    requires Given(configFile) && VaultSection(conf).Some?
    ensures var section := VaultSection(conf).value;
      var o := VaultTrigger(configFile, conf);
      && (o.Request? <==> "vault_url" in section && "vault_token" in section && "secret_path" in section)
      && (o == MissingArgument("vault_token") ==> "vault_url" in section)
      && (o == MissingArgument("secret_path") ==> "vault_url" in section && "vault_token" in section)
  {
  }

  /** The key patterns come from the section when it has them, and are
      otherwise the seven defaults, in order, each of the form `.*<word>.*`. */
  lemma DefaultKeyList(configFile: Option<string>, conf: map<string, Value>)
    requires VaultTrigger(configFile, conf).Request?
    ensures var section := VaultSection(conf).value;
      var k := VaultTrigger(configFile, conf).keyList;
      && ("key_list" in section ==> k == section["key_list"])
      && ("key_list" !in section ==>
            && k.Items? && |k.items| == 7
            && (forall i :: 0 <= i < 7 ==> k.items[i] == Scalar(KeyList[i]))
            && (forall i :: 0 <= i < 7 ==> ".*" <= k.items[i].s && IsSuffixOf(".*", k.items[i].s))
            && k.items[0].s == ".*password.*" && k.items[1].s == ".*key.*"
            && k.items[2].s == ".*secret.*" && k.items[3].s == ".*id.*"
            && k.items[4].s == ".*endpoint.*" && k.items[5].s == ".*tenant.*"
            && k.items[6].s == ".*api.*")
  {
  }

  /** A file without a `vault` mapping behaves as if its whole content were
      that mapping. */
  lemma TopLevelFallback(configFile: Option<string>, conf: map<string, Value>)
    requires "vault" !in conf
    ensures VaultTrigger(configFile, conf) == VaultTrigger(configFile, map["vault" := Section(conf)])
  {
  }
}

=== FILE: results.dfy ===
/** The result assembler (repo.py `_write_results` and `_get_user_details`):
    each hit line becomes one stored record, attributed with the commit's
    author and date. The TinyDB store is the sequence of inserted records. */
module Results {
  import opened Wrappers
  import opened Text
  import opened Naming
  import opened Scanner

  /** One stored record: the dictionary inserted for a hit. */
  datatype Finding = Finding(
    email: string,
    filepath: string,
    username: string,
    commitSha: string,
    commitTime: string,
    repositoryName: string,
    organizationName: string,
    blobUrl: string)

  datatype Author = Author(name: string, email: string, time: string)

  /** Helpers whose source is outside this model: the between-markers
      extractor of `utils` and the `BLOB_URL` template of `constants`. */
  datatype Helpers = Helpers(
    between: (string, string, string) -> string,
    blobUrl: (string, string, string, string) -> string)

  function ShowCommand(repoPath: string, sha: string): string {
    "git -C " + repoPath + " show -s  " + sha
  }

  /** Index of the last `:` in `line`. */
  function LastColon(line: string): (r: Option<nat>)
    ensures r.None? ==> ':' !in line
    ensures r.Some? ==> r.value < |line| && line[r.value] == ':' && ':' !in line[r.value + 1..]
  {
    if |line| == 0 then None
    else if line[|line| - 1] == ':' then Some(|line| - 1)
    else
      var r := LastColon(line[..|line| - 1]);
      assert line == line[..|line| - 1] + [line[|line| - 1]];
      if r.Some? then
        assert line[r.value + 1..] == line[..|line| - 1][r.value + 1..] + [line[|line| - 1]];
        r
      else r
  }

  /** `commit_sha, filepath = match.rsplit(':', 1)`: `None` where the unpacking
      raises because the line holds no `:`. */
  function ParseHit(line: string): (hit: Option<(string, string)>)
    ensures hit.None? <==> ':' !in line
    ensures hit.Some? ==> hit.value.0 + ":" + hit.value.1 == line && ':' !in hit.value.1
  {
    match LastColon(line)
    case None => None
    case Some(i) =>
      assert line == line[..i] + ":" + line[i + 1..];
      Some((line[..i], line[i + 1..]))
  }

  /** The split is Python's `rsplit(':', 1)`: two parts exactly when it
      returns two, and then the same two. */
  lemma ParseHitIsRSplit(line: string)
    ensures var parts := RSplitOnce(line, ":");
      && (ParseHit(line).None? <==> |parts| == 1)
      && (ParseHit(line).Some? ==> parts == [ParseHit(line).value.0, ParseHit(line).value.1])
  {
    match ParseHit(line)
    case None =>
      AbsentChar(line, ':');
    case Some((sha, path)) =>
      RSplitAtLastChar(sha, ':', path);
  }

  /** Parsing a `sha:path` line gives back the sha and the path whenever the
      path is free of `:`, whatever the sha holds. */
  lemma ParseHitRoundTrip(sha: string, path: string)
    requires ':' !in path
    ensures ParseHit(sha + ":" + path) == Some((sha, path))
  {
    RSplitAtLastChar(sha, ':', path);
  }

  /** A colon inside the path moves the split: the path keeps only the text
      after its own last `:`. */
  lemma ColonInPath()
    ensures ParseHit("0a1b:dir:x.py") == Some(("0a1b:dir", "x.py"))
  {
    ParseHitRoundTrip("0a1b:dir", "x.py");
    assert "0a1b:dir" + ":" + "x.py" == "0a1b:dir:x.py";
  }

  /** Author name, author email and commit time cut out of `git show -s`. */
  function UserDetails(details: string, between: (string, string, string) -> string): Author
  {
    Author(between(details, "Author: ", " <"),
           between(details, "<", ">"),
           Strip(between(details, "Date:   ", "+")))
  }

  /** The commit time is the date text with its surrounding whitespace cut
      away and nothing else. */
  lemma UserDetailsTime(details: string, between: (string, string, string) -> string)
    ensures var time := UserDetails(details, between).time;
      && (|time| > 0 ==> !IsSpace(time[0]) && !IsSpace(time[|time| - 1]))
      && exists lo :: StripsTo(between(details, "Date:   ", "+"), time, lo)
  {
    StripShape(between(details, "Date:   ", "+"));
  }

  /** With the reference extractor for the markers helper, the author name
      runs from the end of the first `Author: ` to the next ` <`, the email
      from the first `<` to the next `>`, and the time is the text from the
      first `Date:   ` to the next `+`, stripped. */
  lemma UserDetailsByMarkers(details: string, an: nat, ae: nat, en: nat, ee: nat, dn: nat, de: nat)
    requires FirstAt(details, "Author: ", an) && NextAt(details, " <", an + 8, ae)
    requires FirstAt(details, "<", en) && NextAt(details, ">", en + 1, ee)
    requires FirstAt(details, "Date:   ", dn) && NextAt(details, "+", dn + 8, de)
    ensures var a := UserDetails(details, (s, first, last) => Between(s, first, last));
      && a.name == details[an + 8..ae]
      && a.email == details[en + 1..ee]
      && a.time == Strip(details[dn + 8..de])
  {
    BetweenAt(details, "Author: ", " <", an, ae);
    BetweenAt(details, "<", ">", en, ee);
    BetweenAt(details, "Date:   ", "+", dn, de);
  }

  /** The dictionary inserted for one hit. */
  function MakeFinding(repo: Repo, sha: string, path: string, author: Author, helpers: Helpers): Finding {
    Finding(author.email, path, author.name, sha, author.time, repo.repoName, repo.organization,
            helpers.blobUrl(repo.organization, repo.repoName, sha, path))
  }

  /** The exception that escapes `_write_results`: the `ValueError` of a line
      without `:` (only `IndexError` is caught), or the `CalledProcessError` of
      a failing `git show`. */
  datatype Fault = MalformedHit(line: string) | ShowFailed(sha: string)

  /** What one call wrote: the inserted records in order, the commits whose
      details were fetched, `result_count`, and the escaping fault if any.
      Records inserted before a fault stay in the store. */
  datatype Written = Written(records: seq<Finding>, lookups: seq<string>, resultCount: nat, fault: Option<Fault>)

  /** The line parses and `git show` succeeds for its commit. */
  predicate Writable(repo: Repo, line: string, shell: Shell) {
    ParseHit(line).Some? && shell(ShowCommand(repo.repoPath, ParseHit(line).value.0)).Some?
  }

  /** `f` is the record the code builds for `line`. */
  predicate RecordOf(repo: Repo, line: string, f: Finding, shell: Shell, helpers: Helpers) {
    match ParseHit(line)
    case None => false
    case Some((sha, path)) =>
      match shell(ShowCommand(repo.repoPath, sha))
      case None => false
      case Some(details) => f == MakeFinding(repo, sha, path, UserDetails(details, helpers.between), helpers)
  }

  /** What a record holds: the two halves of its line, the repository's own
      names, the blob link of those four values, and the attribution of its
      commit; the line could be written. */
  lemma RecordFields(repo: Repo, line: string, f: Finding, shell: Shell, helpers: Helpers)
    requires RecordOf(repo, line, f, shell, helpers)
    ensures Writable(repo, line, shell)
    ensures f.commitSha + ":" + f.filepath == line && ':' !in f.filepath
    ensures f.repositoryName == repo.repoName && f.organizationName == repo.organization
    ensures f.blobUrl == helpers.blobUrl(repo.organization, repo.repoName, f.commitSha, f.filepath)
    ensures shell(ShowCommand(repo.repoPath, f.commitSha)).Some?
    ensures Author(f.username, f.email, f.commitTime)
         == UserDetails(shell(ShowCommand(repo.repoPath, f.commitSha)).value, helpers.between)
  {
  }

  /** The commit of each record, in order. */
  function Shas(records: seq<Finding>): (shas: seq<string>)
    ensures |shas| == |records|
    ensures forall i :: 0 <= i < |records| ==> shas[i] == records[i].commitSha
  {
    seq(|records|, i requires 0 <= i < |records| => records[i].commitSha)
  }

  lemma ShasCons(f: Finding, records: seq<Finding>)
    ensures Shas([f] + records) == [f.commitSha] + Shas(records)
  {
    assert forall i :: 1 <= i <= |records| ==> ([f] + records)[i] == records[i - 1];
  }

  /** The inner loop over the flattened hit lines, as written: records follow
      the lines one for one, each counted once, until the first line that
      cannot be written. */
  function WriteLines(repo: Repo, lines: seq<string>, shell: Shell, helpers: Helpers): (w: Written)
    ensures w.resultCount == |w.records| <= |lines|
    ensures w.fault.None? ==> |w.records| == |lines|
    ensures w.fault.Some? ==> |w.records| < |lines|
  {
    if |lines| == 0 then Written([], [], 0, None)
    else
      match ParseHit(lines[0])
      case None => Written([], [], 0, Some(MalformedHit(lines[0])))
      case Some((sha, path)) =>
        match shell(ShowCommand(repo.repoPath, sha))
        case None => Written([], [sha], 0, Some(ShowFailed(sha)))
        case Some(details) =>
          var record := MakeFinding(repo, sha, path, UserDetails(details, helpers.between), helpers);
          var rest := WriteLines(repo, lines[1..], shell, helpers);
          Written([record] + rest.records, [sha] + rest.lookups, rest.resultCount + 1, rest.fault)
  }

  /** `git show` runs once per record, for that record's commit, and once
      more for the commit whose lookup failed. */
  lemma {:induction false} WriteLinesLookups(repo: Repo, lines: seq<string>, shell: Shell, helpers: Helpers)
    ensures var w := WriteLines(repo, lines, shell, helpers);
      && (w.fault.Some? && w.fault.value.ShowFailed? ==> w.lookups == Shas(w.records) + [w.fault.value.sha])
      && (!(w.fault.Some? && w.fault.value.ShowFailed?) ==> w.lookups == Shas(w.records))
    decreases |lines|
  {
    if |lines| > 0 && ParseHit(lines[0]).Some? && shell(ShowCommand(repo.repoPath, ParseHit(lines[0]).value.0)).Some? {
      var w := WriteLines(repo, lines, shell, helpers);
      var rest := WriteLines(repo, lines[1..], shell, helpers);
      WriteLinesStep(repo, lines, shell, helpers);
      WriteLinesLookups(repo, lines[1..], shell, helpers);
      ShasCons(w.records[0], rest.records);
    }
  }

  /** Record `i` is the one built for line `i`. */
  lemma {:induction false} WriteLinesRecords(repo: Repo, lines: seq<string>, shell: Shell, helpers: Helpers)
    ensures var w := WriteLines(repo, lines, shell, helpers);
      forall i :: 0 <= i < |w.records| ==> RecordOf(repo, lines[i], w.records[i], shell, helpers)
    decreases |lines|
  {
    if |lines| > 0 && ParseHit(lines[0]).Some? && shell(ShowCommand(repo.repoPath, ParseHit(lines[0]).value.0)).Some? {
      var w := WriteLines(repo, lines, shell, helpers);
      var rest := WriteLines(repo, lines[1..], shell, helpers);
      WriteLinesStep(repo, lines, shell, helpers);
      WriteLinesRecords(repo, lines[1..], shell, helpers);
      var matches := (line, f) => RecordOf(repo, line, f, shell, helpers);
      PairShift(lines, w.records, rest.records, matches);
    }
  }

  /** A pairing that holds for the first items and, shifted by one, for the
      rest holds item by item. */
  lemma PairShift<A, B>(xs: seq<A>, ys: seq<B>, rest: seq<B>, p: (A, B) -> bool)
    requires 0 < |ys| <= |xs| && ys == [ys[0]] + rest
    requires p(xs[0], ys[0])
    requires forall i :: 0 <= i < |rest| ==> p(xs[1..][i], rest[i])
    ensures forall i :: 0 <= i < |ys| ==> p(xs[i], ys[i])
  {
  }

  /** The write ends without an exception exactly when every line can be
      written; otherwise the fault names the first line that could not. */
  lemma {:induction false} WriteLinesFault(repo: Repo, lines: seq<string>, shell: Shell, helpers: Helpers)
    ensures var w := WriteLines(repo, lines, shell, helpers);
      && (w.fault.None? <==> forall i :: 0 <= i < |lines| ==> Writable(repo, lines[i], shell))
      && (w.fault.Some? ==> !Writable(repo, lines[|w.records|], shell))
      && (w.fault.Some? && w.fault.value.MalformedHit? ==>
            w.fault.value.line == lines[|w.records|] && ':' !in lines[|w.records|])
      && (w.fault.Some? && w.fault.value.ShowFailed? ==>
            ParseHit(lines[|w.records|]).Some? && w.fault.value.sha == ParseHit(lines[|w.records|]).value.0
            && shell(ShowCommand(repo.repoPath, w.fault.value.sha)).None?)
    decreases |lines|
  {
    if |lines| > 0 {
      WriteLinesFault(repo, lines[1..], shell, helpers);
      assert forall i :: 1 <= i < |lines| ==> lines[i] == lines[1..][i - 1];
    }
  }

  /** `_write_results(results)`: every hit list, commit by commit. */
  function WriteResults(repo: Repo, results: seq<seq<string>>, shell: Shell, helpers: Helpers): (w: Written)
    ensures w.resultCount == |w.records| <= |Flatten(results)|
    ensures w.fault.None? ==> |w.records| == |Flatten(results)|
  {
    WriteLines(repo, Flatten(results), shell, helpers)
  }

  /** One writable line contributes one record and one lookup in front of
      whatever the remaining lines produce. */
  lemma WriteLinesStep(repo: Repo, lines: seq<string>, shell: Shell, helpers: Helpers)
    requires |lines| > 0 && ParseHit(lines[0]).Some?
    requires shell(ShowCommand(repo.repoPath, ParseHit(lines[0]).value.0)).Some?
    ensures var (sha, path) := ParseHit(lines[0]).value;
      var w := WriteLines(repo, lines, shell, helpers);
      var rest := WriteLines(repo, lines[1..], shell, helpers);
      && w.records[0].commitSha == sha && w.records[0].filepath == path
      && RecordOf(repo, lines[0], w.records[0], shell, helpers)
      && w.records == [w.records[0]] + rest.records
      && w.lookups == [sha] + rest.lookups
      && w.fault == rest.fault
  {
  }

  /** No memoisation: two hits in one commit fetch that commit's details twice. */
  lemma TwoHitsOneCommit(repo: Repo, sha: string, p1: string, p2: string, shell: Shell, helpers: Helpers)
    requires ':' !in p1 && ':' !in p2
    requires shell(ShowCommand(repo.repoPath, sha)).Some?
    ensures var w := WriteResults(repo, [[sha + ":" + p1, sha + ":" + p2]], shell, helpers);
      w.fault.None? && w.lookups == [sha, sha] && w.resultCount == 2
      && w.records[0].filepath == p1 && w.records[1].filepath == p2
  {
    var lines := [sha + ":" + p1, sha + ":" + p2];
    assert Flatten([lines]) == lines by {
      var none: seq<seq<string>> := [];
      assert [lines][1..] == none;
      assert Flatten(none) == [];
      assert lines + [] == lines;
    }
    ParseHitRoundTrip(sha, p1);
    ParseHitRoundTrip(sha, p2);
    assert lines[1..] == [lines[1]] && [lines[1]][1..] == [];
    WriteLinesStep(repo, [lines[1]], shell, helpers);
    WriteLinesStep(repo, lines, shell, helpers);
  }

  // ------------------------------------------------ the intended behaviour

  /** The lines that hold a `:`, in their original order. */
  function KeepWellFormed(lines: seq<string>): (kept: seq<string>)
    ensures |kept| <= |lines|
    ensures forall i :: 0 <= i < |kept| ==> ':' in kept[i]
    ensures forall i :: 0 <= i < |lines| && ':' in lines[i] ==> lines[i] in kept
    ensures forall i :: 0 <= i < |kept| ==> kept[i] in lines
  {
    if |lines| == 0 then []
    else
      var rest := KeepWellFormed(lines[1..]);
      assert forall i :: 1 <= i < |lines| ==> lines[i] == lines[1..][i - 1];
      if ':' in lines[0] then [lines[0]] + rest else rest
  }

  /** The filter works line by line: filtering two stretches of lines one
      after the other gives the two filtered stretches in that order. */
  lemma {:induction false} KeepWellFormedAppend(a: seq<string>, b: seq<string>)
    ensures KeepWellFormed(a + b) == KeepWellFormed(a) + KeepWellFormed(b)
    decreases |a|
  {
    if |a| == 0 {
      assert a + b == b;
    } else {
      assert (a + b)[0] == a[0];
      assert (a + b)[1..] == a[1..] + b;
      KeepWellFormedAppend(a[1..], b);
    }
  }

  /** One line is kept exactly when it holds a `:`, and lines that all hold
      one are kept unchanged, in order. */
  lemma {:induction false} KeepWellFormedLines(line: string, lines: seq<string>)
    ensures KeepWellFormed([line]) == if ':' in line then [line] else []
    ensures (forall i :: 0 <= i < |lines| ==> ':' in lines[i]) ==> KeepWellFormed(lines) == lines
    decreases |lines|
  {
    assert [line][1..] == [];
    if |lines| > 0 {
      KeepWellFormedLines(line, lines[1..]);
      assert forall i :: 1 <= i < |lines| ==> lines[i] == lines[1..][i - 1];
      assert lines == [lines[0]] + lines[1..];
    }
  }

  /** The loop the comment in `_write_results` describes: a line without `:`
      is passed over and not counted. */
  function WriteLinesSkipping(repo: Repo, lines: seq<string>, shell: Shell, helpers: Helpers): (w: Written)
    ensures w.fault.None? || w.fault.value.ShowFailed?
    ensures w == WriteLines(repo, KeepWellFormed(lines), shell, helpers)
  {
    if |lines| == 0 then Written([], [], 0, None)
    else
      match ParseHit(lines[0])
      case None => WriteLinesSkipping(repo, lines[1..], shell, helpers)
      case Some((sha, path)) =>
        match shell(ShowCommand(repo.repoPath, sha))
        case None => Written([], [sha], 0, Some(ShowFailed(sha)))
        case Some(details) =>
          var record := MakeFinding(repo, sha, path, UserDetails(details, helpers.between), helpers);
          var rest := WriteLinesSkipping(repo, lines[1..], shell, helpers);
          assert KeepWellFormed(lines)[1..] == KeepWellFormed(lines[1..]);
          Written([record] + rest.records, [sha] + rest.lookups, rest.resultCount + 1, rest.fault)
  }

  /** On well-formed output the two loops agree. */
  lemma {:induction false} SkippingAgreesOnWellFormed(repo: Repo, lines: seq<string>, shell: Shell, helpers: Helpers)
    requires forall i :: 0 <= i < |lines| ==> ':' in lines[i]
    ensures WriteLinesSkipping(repo, lines, shell, helpers) == WriteLines(repo, lines, shell, helpers)
    decreases |lines|
  {
    if |lines| > 0 {
      SkippingAgreesOnWellFormed(repo, lines[1..], shell, helpers);
    }
  }

  /** A bare file name among the hits aborts the write as written; the intended
      loop skips it and counts nothing. */
  lemma MalformedLineAborts(repo: Repo, shell: Shell, helpers: Helpers)
    ensures WriteResults(repo, [["README.md"]], shell, helpers) == Written([], [], 0, Some(MalformedHit("README.md")))
    ensures WriteLinesSkipping(repo, ["README.md"], shell, helpers) == Written([], [], 0, None)
  {
    assert Flatten([["README.md"]]) == ["README.md"] by {
      var none: seq<seq<string>> := [];
      assert [["README.md"]][1..] == none;
      assert ["README.md"] + [] == ["README.md"];
    }
    assert ':' !in "README.md";
    var noLines: seq<string> := [];
    assert ["README.md"][1..] == noLines;
  }
}

=== FILE: scanner.dfy ===
/** Commit enumeration and per-commit search (repo.py `_get_all_commits`,
    `_search`, `_search_commit`). Git itself is an input: `Shell` maps an exact
    command line to its standard output, or to `None` when the command exits
    non-zero. That `CalledProcessError` is caught for `rev-list` and `grep`;
    for the `git show` of the result writer it escapes. */
module Scanner {
  import opened Wrappers
  import opened Text
  import opened Pattern

  type Shell = string -> Option<string>

  function RevListCommand(repoPath: string): string {
    "git -C " + repoPath + " rev-list --all"
  }

  function GrepCommand(repoPath: string, searchString: string, commit: string): string {
    "git -C " + repoPath + " grep -l -e " + searchString + " " + commit
  }

  /** The commit list, and the count stored in `self.commits`; the count is
      only recorded when the listing succeeds. */
  datatype Listing = Listing(commits: seq<string>, counted: Option<nat>)

  function AllCommits(repoPath: string, shell: Shell): (l: Listing)
    ensures shell(RevListCommand(repoPath)).None? ==> l.commits == [] && l.counted.None?
    ensures shell(RevListCommand(repoPath)).Some? ==> l.counted == Some(|l.commits|)
    ensures forall i :: 0 <= i < |l.commits| ==> NoBreaks(l.commits[i])
  {
    match shell(RevListCommand(repoPath))
    case None => Listing([], None)
    case Some(out) =>
      var commits := SplitLines(out);
      Listing(commits, Some(|commits|))
  }

  /** When `rev-list` prints one sha per line, the listing is exactly those shas. */
  lemma AllCommitsOfOutput(repoPath: string, shell: Shell, shas: seq<string>)
    requires forall i :: 0 <= i < |shas| ==> NoBreaks(shas[i])
    requires shell(RevListCommand(repoPath)) == Some(Terminate(shas))
    ensures AllCommits(repoPath, shell) == Listing(shas, Some(|shas|))
  {
    SplitLinesTerminate(shas);
  }

  /** The hit lines `git grep -l` prints for one commit; a failing grep (which
      includes "no match") contributes no lines. */
  function SearchCommit(repoPath: string, searchString: string, commit: string, shell: Shell): (hits: seq<string>)
    ensures shell(GrepCommand(repoPath, searchString, commit)).None? ==> hits == []
    ensures forall i :: 0 <= i < |hits| ==> NoBreaks(hits[i])
    ensures |hits| == 0 <==> shell(GrepCommand(repoPath, searchString, commit)) in {None, Some("")}
  {
    match shell(GrepCommand(repoPath, searchString, commit))
    case None => []
    case Some(out) => SplitLines(out)
  }

  function SearchEach(repoPath: string, searchString: string, commits: seq<string>, shell: Shell)
    : (results: seq<seq<string>>)
    ensures |results| == |commits|
    ensures forall i :: 0 <= i < |commits| ==>
      results[i] == SearchCommit(repoPath, searchString, commits[i], shell)
  {
    if |commits| == 0 then []
    else [SearchCommit(repoPath, searchString, commits[0], shell)]
         + SearchEach(repoPath, searchString, commits[1..], shell)
  }

  /** One hit list per commit, in commit order, all searched with the same
      compiled expression. */
  function SearchAll(repoPath: string, terms: seq<string>, commits: seq<string>, shell: Shell)
    : (results: seq<seq<string>>)
    ensures |results| == |commits|
    ensures forall i :: 0 <= i < |commits| ==>
      results[i] == SearchCommit(repoPath, SearchString(terms), commits[i], shell)
  {
    SearchEach(repoPath, SearchString(terms), commits, shell)
  }

  /** The hits of all commits as one sequence: commits first, then the lines
      within each commit. */
  function Flatten(results: seq<seq<string>>): (lines: seq<string>)
    ensures |results| == 0 ==> lines == []
  {
    if |results| == 0 then [] else results[0] + Flatten(results[1..])
  }

  lemma {:induction false} FlattenAppend(a: seq<seq<string>>, b: seq<seq<string>>)
    ensures Flatten(a + b) == Flatten(a) + Flatten(b)
    decreases |a|
  {
    if |a| > 0 {
      assert (a + b)[1..] == a[1..] + b;
      FlattenAppend(a[1..], b);
    } else {
      assert a + b == b;
    }
  }

  /** Every line of every commit appears in the flattened hits, and nothing else. */
  lemma {:induction false} FlattenMembers(results: seq<seq<string>>, line: string)
    ensures line in Flatten(results) <==> exists i :: 0 <= i < |results| && line in results[i]
    decreases |results|
  {
    if |results| > 0 {
      FlattenMembers(results[1..], line);
      if line in Flatten(results[1..]) {
        var i :| 0 <= i < |results[1..]| && line in results[1..][i];
        assert line in results[i + 1];
      }
      if exists i :: 0 <= i < |results| && line in results[i] {
        var i :| 0 <= i < |results| && line in results[i];
        if i > 0 {
          assert line in results[1..][i - 1];
        }
      }
    }
  }
}

=== FILE: text.dfy ===
/** String operations of the Python 2 runtime the scanner relies on:
    `rsplit(sep, 1)`, `str.join`, `splitlines`, `strip`, `lower` and
    `encode('ascii')`, stated over `seq<char>`. */
module Text {
  import opened Wrappers

  /** `pat` occurs in `s` starting at index `j`. */
  predicate OccursAt(s: string, pat: string, j: int) {
    0 <= j && j + |pat| <= |s| && s[j..j + |pat|] == pat
  }

  predicate IsSuffixOf(r: string, s: string) {
    |r| <= |s| && s[|s| - |r|..] == r
  }

  predicate Contains(s: string, pat: string) {
    exists j :: 0 <= j <= |s| && OccursAt(s, pat, j)
  }

  lemma OccursAtChar(s: string, c: char, j: int)
    ensures OccursAt(s, [c], j) <==> 0 <= j < |s| && s[j] == c
  {
    if 0 <= j < |s| {
      assert s[j..j + 1] == [s[j]];
    }
  }

  /** A character that is absent from `s` does not occur in it as a pattern. */
  lemma AbsentChar(s: string, c: char)
    requires c !in s
    ensures !Contains(s, [c])
  {
    forall j | 0 <= j <= |s|
      ensures !OccursAt(s, [c], j)
    {
      OccursAtChar(s, c, j);
    }
  }

  /** A pattern whose first character is absent from `s` does not occur in it. */
  lemma AbsentHead(s: string, pat: string)
    requires |pat| > 0 && pat[0] !in s
    ensures !Contains(s, pat)
  {
    forall j | 0 <= j <= |s| && OccursAt(s, pat, j)
      ensures false
    {
    }
  }

  /** An occurrence inside a suffix of `s` is an occurrence in `s`, shifted. */
  lemma OccursInSuffix(s: string, pat: string, d: nat, m: int)
    requires d <= |s|
    requires OccursAt(s[d..], pat, m)
    ensures OccursAt(s, pat, d + m)
  {
    assert s[d..][m..m + |pat|] == s[d + m..d + m + |pat|];
  }

  /** First occurrence of `pat` at or after `from` (Python's `s.index(pat, from)`). */
  function IndexFrom(s: string, pat: string, from: nat): (r: Option<nat>)
    ensures r.Some? ==> from <= r.value && OccursAt(s, pat, r.value)
    ensures r.Some? ==> forall j :: from <= j < r.value ==> !OccursAt(s, pat, j)
    ensures r.None? ==> forall j :: from <= j ==> !OccursAt(s, pat, j)
    decreases |s| + 1 - from
  {
    if from + |pat| > |s| then None
    else if OccursAt(s, pat, from) then Some(from)
    else IndexFrom(s, pat, from + 1)
  }

  function LastIndexUpTo(s: string, pat: string, k: nat): (r: Option<nat>)
    ensures r.Some? ==> r.value <= k && OccursAt(s, pat, r.value)
    ensures r.Some? ==> forall j :: r.value < j <= k ==> !OccursAt(s, pat, j)
    ensures r.None? ==> forall j :: j <= k ==> !OccursAt(s, pat, j)
  {
    if OccursAt(s, pat, k) then Some(k)
    else if k == 0 then None
    else LastIndexUpTo(s, pat, k - 1)
  }

  /** Rightmost occurrence of `pat` in `s` (Python's `s.rfind(pat)`). */
  function LastIndexOf(s: string, pat: string): (r: Option<nat>)
    ensures r.Some? ==> OccursAt(s, pat, r.value)
    ensures r.Some? ==> forall j :: r.value < j ==> !OccursAt(s, pat, j)
    ensures r.None? ==> !Contains(s, pat)
  {
    LastIndexUpTo(s, pat, |s|)
  }

  /** Python's `s.rsplit(sep, 1)`: one part when `sep` does not occur, else the
      text before and after the rightmost occurrence. */
  function RSplitOnce(s: string, sep: string): (parts: seq<string>)
    requires |sep| > 0
    ensures |parts| == 1 || |parts| == 2
    ensures |parts| == 1 <==> !Contains(s, sep)
    ensures |parts| == 1 ==> parts[0] == s
    ensures |parts| == 2 ==> parts[0] + sep + parts[1] == s
    ensures |parts| == 2 ==> forall j :: |parts[0]| < j ==> !OccursAt(s, sep, j)
  {
    match LastIndexOf(s, sep)
    case None => [s]
    case Some(i) =>
      assert s == s[..i] + s[i..i + |sep|] + s[i + |sep|..];
      [s[..i], s[i + |sep|..]]
  }

  /** Splitting at a known occurrence after which `sep` never occurs again. */
  lemma RSplitAtLast(before: string, sep: string, after: string)
    requires |sep| > 0
    requires forall j :: |before| < j ==> !OccursAt(before + sep + after, sep, j)
    ensures RSplitOnce(before + sep + after, sep) == [before, after]
  {
    var s := before + sep + after;
    assert s[|before|..|before| + |sep|] == sep;
    assert OccursAt(s, sep, |before|);
    var parts := RSplitOnce(s, sep);
    assert |parts| == 2;
    assert OccursAt(s, sep, |parts[0]|) by {
      assert s[|parts[0]|..|parts[0]| + |sep|] == sep;
    }
    assert |parts[0]| == |before|;
    assert parts[0] == s[..|before|] == before;
    assert parts[1] == s[|before| + |sep|..] == after;
  }

  /** The single-character case of `RSplitAtLast`: `c` must not occur after the split. */
  lemma RSplitAtLastChar(before: string, c: char, after: string)
    requires c !in after
    ensures RSplitOnce(before + [c] + after, [c]) == [before, after]
  {
    var s := before + [c] + after;
    forall j | |before| < j
      ensures !OccursAt(s, [c], j)
    {
      OccursAtChar(s, c, j);
      if j < |s| {
        assert s[j] == after[j - |before| - 1];
      }
    }
    RSplitAtLast(before, [c], after);
  }

  /** No separator occurs in `s` after index `i` + the separator itself. */
  lemma NoOccurrenceAfter(s: string, sep: string, i: nat)
    requires |sep| > 0 && i + |sep| <= |s|
    requires forall j :: i < j ==> !OccursAt(s, sep, j)
    ensures !Contains(s[i + |sep|..], sep)
  {
    var t := s[i + |sep|..];
    forall m | 0 <= m <= |t| && OccursAt(t, sep, m)
      ensures false
    {
      OccursInSuffix(s, sep, i + |sep|, m);
    }
  }

  /** Python's `s.rsplit(sep, 1)[-1]`: what follows the last `sep`, or all of `s`. */
  function AfterLast(s: string, sep: string): (r: string)
    requires |sep| > 0
    ensures |r| <= |s| && r == s[|s| - |r|..]
    ensures !Contains(r, sep)
    ensures Contains(s, sep) ==> |r| + |sep| <= |s| && OccursAt(s, sep, |s| - |r| - |sep|)
  {
    var parts := RSplitOnce(s, sep);
    if |parts| == 2 then
      assert parts[1] == s[|parts[0]| + |sep|..];
      assert s[|parts[0]|..|parts[0]| + |sep|] == sep;
      NoOccurrenceAfter(s, sep, |parts[0]|);
      parts[1]
    else
      parts[0]
  }

  /** Python's `s.rsplit(sep, 1)[0]`: what precedes the last `sep`, or all of `s`. */
  function BeforeLast(s: string, sep: string): (r: string)
    requires |sep| > 0
    ensures |r| <= |s| && r == s[..|r|]
    ensures !Contains(s, sep) ==> r == s
    ensures Contains(s, sep) ==> OccursAt(s, sep, |r|) && forall j :: |r| < j ==> !OccursAt(s, sep, j)
  {
    var parts := RSplitOnce(s, sep);
    if |parts| == 2 then
      assert s[..|parts[0]|] == parts[0];
      assert s[|parts[0]|..|parts[0]| + |sep|] == sep;
      parts[0]
    else
      parts[0]
  }

  /** Python's `sep.join(items)`. */
  function Join(items: seq<string>, sep: string): string
  {
    if |items| == 0 then ""
    else if |items| == 1 then items[0]
    else items[0] + sep + Join(items[1..], sep)
  }

  // ---------------------------------------------------------------- lines

  /** Line boundaries recognised by `splitlines` on a Python 2 byte string. */
  predicate IsBreak(c: char) {
    c == '\n' || c == '\r'
  }

  predicate NoBreaks(t: string) {
    forall m :: 0 <= m < |t| ==> !IsBreak(t[m])
  }

  /** Index of the first line boundary in `s`, or `|s|` when there is none. */
  function FirstBreak(s: string): (k: nat)
    ensures k <= |s|
    ensures k < |s| ==> IsBreak(s[k])
    ensures NoBreaks(s[..k])
  {
    if |s| == 0 then 0
    else if IsBreak(s[0]) then 0
    else
      var k := 1 + FirstBreak(s[1..]);
      assert s[..k] == [s[0]] + s[1..][..k - 1];
      k
  }

  /** Python 2 `str.splitlines()`: lines end at `\n`, `\r` or `\r\n`, the
      terminators are dropped, and a final terminator opens no empty line. */
  function SplitLines(s: string): (lines: seq<string>)
    ensures forall i :: 0 <= i < |lines| ==> NoBreaks(lines[i])
    ensures |lines| == 0 <==> |s| == 0
    decreases |s|
  {
    if |s| == 0 then []
    else
      var k := FirstBreak(s);
      if k == |s| then
        assert s[..k] == s;
        [s]
      else
        var next := if s[k] == '\r' && k + 1 < |s| && s[k + 1] == '\n' then k + 2 else k + 1;
        [s[..k]] + SplitLines(s[next..])
  }

  /** Each line followed by `\n`: the shape of a command's standard output. */
  function Terminate(lines: seq<string>): string
  {
    if |lines| == 0 then "" else lines[0] + "\n" + Terminate(lines[1..])
  }

  lemma FirstBreakAt(line: string, c: char, rest: string)
    requires NoBreaks(line) && IsBreak(c)
    ensures FirstBreak(line + [c] + rest) == |line|
  {
    var s := line + [c] + rest;
    var k := FirstBreak(s);
    assert s[|line|] == c;
  }

  /** A break-free line ended by `\n` comes off the front as one line. */
  lemma SplitLinesFront(line: string, rest: string)
    requires NoBreaks(line)
    ensures SplitLines(line + "\n" + rest) == [line] + SplitLines(rest)
  {
    var s := line + "\n" + rest;
    assert s == line + ['\n'] + rest;
    FirstBreakAt(line, '\n', rest);
    assert s[..|line|] == line;
    assert s[|line| + 1..] == rest;
  }

  /** `splitlines` inverts newline termination of break-free lines. */
  lemma {:induction false} SplitLinesTerminate(lines: seq<string>)
    requires forall i :: 0 <= i < |lines| ==> NoBreaks(lines[i])
    ensures SplitLines(Terminate(lines)) == lines
    decreases |lines|
  {
    if |lines| > 0 {
      SplitLinesFront(lines[0], Terminate(lines[1..]));
      SplitLinesTerminate(lines[1..]);
    }
  }

  // ---------------------------------------------------------------- strip

  /** Whitespace removed by `strip()` on a Python 2 byte string. */
  predicate IsSpace(c: char) {
    c == ' ' || c == '\t' || c == '\n' || c == '\r' || c as int == 0x0B || c as int == 0x0C
  }

  predicate AllSpace(t: string) {
    forall m :: 0 <= m < |t| ==> IsSpace(t[m])
  }

  function TrimLeft(s: string): (r: string)
    ensures |r| <= |s|
  {
    if |s| > 0 && IsSpace(s[0]) then TrimLeft(s[1..]) else s
  }

  function TrimRight(s: string): (r: string)
    ensures |r| <= |s|
  {
    if |s| > 0 && IsSpace(s[|s| - 1]) then TrimRight(s[..|s| - 1]) else s
  }

  /** `TrimLeft` keeps a suffix that starts with a non-space, and everything
      it cut is whitespace. */
  lemma {:induction false} TrimLeftShape(s: string)
    ensures var r := TrimLeft(s);
      && r == s[|s| - |r|..]
      && (forall m :: 0 <= m < |s| - |r| ==> IsSpace(s[m]))
      && (|r| > 0 ==> !IsSpace(r[0]))
    decreases |s|
  {
    if |s| > 0 && IsSpace(s[0]) {
      TrimLeftShape(s[1..]);
      var r := TrimLeft(s);
      assert s[1..][|s| - 1 - |r|..] == s[|s| - |r|..];
      forall m | 1 <= m < |s| - |r|
        ensures IsSpace(s[m])
      {
        assert s[m] == s[1..][m - 1];
      }
    }
  }

  /** `TrimRight` keeps a prefix that ends in a non-space, and everything it
      cut is whitespace. */
  lemma {:induction false} TrimRightShape(s: string)
    ensures var r := TrimRight(s);
      && r == s[..|r|]
      && (forall m :: |r| <= m < |s| ==> IsSpace(s[m]))
      && (|r| > 0 ==> !IsSpace(r[|r| - 1]))
    decreases |s|
  {
    if |s| > 0 && IsSpace(s[|s| - 1]) {
      TrimRightShape(s[..|s| - 1]);
      var r := TrimRight(s);
      assert s[..|s| - 1][..|r|] == s[..|r|];
      forall m | |r| <= m < |s| - 1
        ensures IsSpace(s[m])
      {
        assert s[m] == s[..|s| - 1][m];
      }
    }
  }

  /** `r` is the slice of `s` at `lo` and everything around it is whitespace. */
  predicate StripsTo(s: string, r: string, lo: int) {
    && 0 <= lo <= |s| - |r|
    && s[lo..lo + |r|] == r
    && (forall m :: 0 <= m < lo ==> IsSpace(s[m]))
    && (forall m :: lo + |r| <= m < |s| ==> IsSpace(s[m]))
  }

  /** Python's `s.strip()`. */
  function Strip(s: string): (r: string)
    ensures |r| <= |s|
  {
    TrimRight(TrimLeft(s))
  }

  /** Whitespace cut from the right of a suffix of `s` sits at the same
      positions of `s`. */
  lemma TrimmedTail(s: string, lo: nat)
    requires lo <= |s|
    ensures forall m :: lo + |TrimRight(s[lo..])| <= m < |s| ==> IsSpace(s[m])
  {
    var l := s[lo..];
    var r := TrimRight(l);
    TrimRightShape(l);
    forall m | lo + |r| <= m < |s|
      ensures IsSpace(s[m])
    {
      assert s[m] == l[m - lo];
    }
  }

  /** The result of `strip` is a slice of its input with no whitespace at
      either end, and everything cut away is whitespace. */
  lemma StripShape(s: string)
    ensures var r := Strip(s);
      && (|r| > 0 ==> !IsSpace(r[0]) && !IsSpace(r[|r| - 1]))
      && exists lo :: StripsTo(s, r, lo)
  {
    var l := TrimLeft(s);
    TrimLeftShape(s);
    var lo := |s| - |l|;
    assert l == s[lo..];
    var r := TrimRight(l);
    TrimRightShape(l);
    assert s[lo..lo + |r|] == r;
    TrimmedTail(s, lo);
    assert StripsTo(s, r, lo);
  }

  lemma {:induction false} TrimLeftPadding(pad: string, t: string)
    requires AllSpace(pad)
    requires |t| > 0 ==> !IsSpace(t[0])
    ensures TrimLeft(pad + t) == t
    decreases |pad|
  {
    if |pad| > 0 {
      assert (pad + t)[1..] == pad[1..] + t;
      TrimLeftPadding(pad[1..], t);
    } else {
      assert pad + t == t;
    }
  }

  lemma {:induction false} TrimRightPadding(t: string, pad: string)
    requires AllSpace(pad)
    requires |t| > 0 ==> !IsSpace(t[|t| - 1])
    ensures TrimRight(t + pad) == t
    decreases |pad|
  {
    if |pad| > 0 {
      assert (t + pad)[..|t + pad| - 1] == t + pad[..|pad| - 1];
      TrimRightPadding(t, pad[..|pad| - 1]);
    } else {
      assert t + pad == t;
    }
  }

  /** `strip` removes exactly the surrounding whitespace and nothing else. */
  lemma StripPadding(left: string, t: string, right: string)
    requires AllSpace(left) && AllSpace(right)
    requires |t| > 0 ==> !IsSpace(t[0]) && !IsSpace(t[|t| - 1])
    ensures Strip(left + t + right) == t
  {
    if |t| == 0 {
      assert left + t + right == (left + right) + "";
      TrimLeftPadding(left + right, "");
    } else {
      assert left + t + right == left + (t + right);
      assert (t + right)[0] == t[0];
      TrimLeftPadding(left, t + right);
      TrimRightPadding(t, right);
    }
  }

  // ---------------------------------------------------------------- case

  predicate IsAsciiChar(c: char) {
    c as int < 128
  }

  predicate IsAscii(s: string) {
    forall m :: 0 <= m < |s| ==> IsAsciiChar(s[m])
  }

  function LowerChar(c: char): char {
    if 'A' <= c <= 'Z' then (c as int + 32) as char else c
  }

  /** Python 2 `lower()` on an ASCII byte string: only `A`-`Z` change. */
  function LowerAscii(s: string): (r: string)
    ensures |r| == |s|
    ensures forall m :: 0 <= m < |s| ==> r[m] == LowerChar(s[m])
  {
    if |s| == 0 then "" else [LowerChar(s[0])] + LowerAscii(s[1..])
  }

  /** Lowering twice is lowering once, and no upper-case letter survives. */
  lemma LowerAsciiIdempotent(s: string)
    ensures LowerAscii(LowerAscii(s)) == LowerAscii(s)
    ensures forall m :: 0 <= m < |s| ==> !('A' <= LowerAscii(s)[m] <= 'Z')
  {
  }

  // ---------------------------------------------------------------- markers

  /** The text between the first `first` and the next `last` after it, or ""
      when either marker is missing. */
  function Between(s: string, first: string, last: string): (r: string)
    ensures !Contains(s, first) ==> r == ""
    ensures r != "" ==> Contains(s, first + r + last)
  {
    match IndexFrom(s, first, 0)
    case None => ""
    case Some(i) =>
      match IndexFrom(s, last, i + |first|)
      case None => ""
      case Some(k) =>
        var r := s[i + |first|..k];
        assert s[i..k + |last|] == first + r + last;
        assert OccursAt(s, first + r + last, i);
        r
  }

  /** `pat` occurs at `i` and nowhere before. */
  predicate FirstAt(s: string, pat: string, i: int) {
    OccursAt(s, pat, i) && forall j :: 0 <= j < i ==> !OccursAt(s, pat, j)
  }

  /** `pat` occurs at `k`, at or after `from`, and nowhere in between. */
  predicate NextAt(s: string, pat: string, from: int, k: int) {
    from <= k && OccursAt(s, pat, k) && forall j :: from <= j < k ==> !OccursAt(s, pat, j)
  }

  /** `Between` cuts from the end of the first `first` to the next `last`. */
  lemma BetweenAt(s: string, first: string, last: string, i: nat, k: nat)
    requires FirstAt(s, first, i) && NextAt(s, last, i + |first|, k)
    ensures Between(s, first, last) == s[i + |first|..k]
  {
    assert IndexFrom(s, first, 0) == Some(i);
  }

  lemma BetweenExample()
    ensures Between("bosurchom", "bo", "om") == "surch"
  {
    var s := "bosurchom";
    assert OccursAt(s, "bo", 0);
    assert OccursAt(s, "om", 7);
    assert s[2] == 's' && s[3] == 'u' && s[4] == 'r' && s[5] == 'c' && s[6] == 'h';
    assert forall j :: 2 <= j < 7 ==> s[j..j + 2][0] == s[j];
  }
}

=== FILE: wrappers.dfy ===
/** The optional value used wherever the modelled program may or may not
    have something to return (a command that failed, a key that is absent). */
module Wrappers {

  datatype Option<+T> = None | Some(value: T)
}
